=== FILE: README.md ===
# 3D crossword placement engine

A Dafny model of the crossword generator in `main.py`. A theme goes to a text
generation service, and the reply is read as alternating word and description
lines. The words are then laid out greedily on a three-axis integer lattice.

The layout works like this:

- The first word is seeded at the origin along X.
- Each round rebuilds the map from cells to letters out of the placements so far.
- Each round tries every pending word. A word's letter `i` is aligned with stored cells, along each of the axes X, Y and Z. The intent is every stored cell that holds that letter, but the code's filter skips some of them (see the next paragraph).
- A candidate is rejected when it would put a different letter on an occupied cell.
- Each surviving candidate is scored by its number of intersections and then by that round's score for its axis. The first candidate with the greatest score is kept.
- When no candidate survives, the loop stops and the remaining words are left out.

The reply lists each placed word with its axis, start cell and description.

Modules, one per file:

- `Lattice` (lattice.dfy): cells, axes, placements and `word_letter_position`.
- `Text` (text.dfy): splitting the reply into lines, stripping them, and normalising words.
- `Table` (table.dfy): the insertion-ordered word-to-description dictionary.
- `Occupancy` (occupancy.dfy): the cell-to-letter map, as an insertion-ordered list of entries.
- `Search` (search.dfy):
  - the candidate check;
  - the nested search loops in their exact order;
  - scoring and selection.
- `Engine` (engine.dfy): the round loop, with its invariants.
- `Service` (service.dfy): the request handler around the engine.
- `Findings` (findings.dfy): a concrete run for the finding below.

The search loop rebinds `letter` (main.py:98). That is the variable the cell filter of main.py:92 reads. The model therefore has two modes:

- `Search.Mode.AsWritten` replicates the code: after the first matching cell, the filter compares with a stale letter.
- `Search.Mode.Corrected` compares with letter `letter_index` of the word, as the comment at main.py:68 describes.

Every engine property below holds for both modes unless its row names one.

Three things `main.py` does not do, and the model does not either:

- It has no fallback placement. When nothing fits, the loop breaks (main.py:109-110) and the remaining words are dropped.
- The map stores only a letter per cell (main.py:80). There is no set of axes per cell and no limit on crossings, so a word may lie along an axis over letters of another word.
- Its primary score is the count of letter intersections (main.py:96-106), not a measure of neighbouring cells.

## Model

| member | source | states |
|---|---|---|
| Lattice.IndexZeroIsStart | main.py:21-28 | Letter 0 of a word is on its start cell, for every axis. |
| Lattice.LetterCellMovesOneCoordinate | main.py:21-28 | Index i along X changes only x, by +i. Along Y it changes only y, by -i. Along Z it changes only z, by +i. |
| Lattice.LetterCellIsScaledUnit | main.py:21-28 | Letter i lies i unit steps of the axis away from the start, with Y's unit pointing to -y. |
| Lattice.LetterCellCompose | main.py:21-28 | Steps along one axis add up: i steps from the cell j steps away is i+j steps away. |
| Lattice.StepBackThenForward | main.py:95-99 | The start computed by stepping back k from the matched cell puts letter k of the word on that cell. |
| Lattice.LetterCellInjective | main.py:21-28 | Two letters of one placed word share a cell only if they have the same index. |
| Lattice.Offset | main.py:21-28 | A found offset leads from the start to the cell along the axis. No offset means no index reaches the cell. |
| Lattice.OffsetOfLetterCell | main.py:21-28 | Offset inverts the lattice step: the offset of letter i's cell is i. |
| Lattice.LetterAt | main.py:78-80 | A placement puts a letter on a cell exactly when one of its indices reaches that cell. The letter is the word's letter at that index. |
| Lattice.LetterAtLetterCell | main.py:78-80 | Letter k of a placed word is the letter its placement puts on letter k's cell. |
| Text.SplitLines | main.py:51 | Splitting on newlines yields at least one line, and no line contains a newline. |
| Text.JoinSplitLines | main.py:51 | Joining the split lines with newlines gives back the reply. |
| Text.SplitJoinLines | main.py:51 | Splitting joined newline-free lines gives back the lines. |
| Text.Strip | main.py:51 | The result is the input minus a maximal all-whitespace prefix and suffix, and it neither starts nor ends with whitespace. |
| Text.StripFramed | main.py:51 | A middle part without outer whitespace, framed by whitespace on both sides, strips to the middle part. |
| Text.StripIdempotent | main.py:51 | Stripping twice is stripping once. |
| Text.Lines | main.py:51 | There is one stripped line per split line, and at least one. |
| Text.UpperChar | main.py:54 | An ASCII lower-case letter becomes the upper-case letter 32 code points below it. Every other character is kept. |
| Text.UpperAll | main.py:54 | Each ASCII lower-case letter becomes its upper-case letter, every other character is kept, and the length is kept. |
| Text.Filter | main.py:55-56 | The result keeps exactly the characters that pass the filter. |
| Text.FilterConcat | main.py:55-56 | Filtering distributes over concatenation. |
| Text.FilterKeepsAll | main.py:55-56 | Filtering a string whose characters all pass changes nothing. |
| Text.Normalize | main.py:54-56 | A normalised word is no longer than the input, and it holds only upper-case letters and underscores. |
| Text.NormalizeKeeps | main.py:54-56 | A letter or underscore of the input survives in upper case. A digit or other non-word character is removed. |
| Text.NormalizeIsOneFilter | main.py:54-56 | Reference reading: normalising is upper-casing followed by keeping exactly the upper-case letters and underscores, in order. |
| Text.NormalizeKeepsCleanWord | main.py:54-56 | A word of upper-case letters and underscores is left unchanged. |
| Text.NormalizeIdempotent | main.py:54-56 | Normalising twice is normalising once. |
| Text.NormalizeConcat | main.py:54-56 | Normalisation works character by character: it distributes over concatenation. |
| Table.FirstIndex | main.py:58-60 | The position of the first occurrence, which is the length exactly when the value is absent. |
| Table.Get | main.py:120 | Lookup finds a description exactly for the table's words, and the pair is in the table. |
| Table.Put | main.py:58 | After an assignment, the word maps to the new description and every other word is unchanged. |
| Table.PutWords | main.py:58 | Assigning an existing word keeps the key order. A new word goes last. |
| Table.Collect | main.py:52-58 | The dictionary loop has at most one entry per pair. CollectWords and CollectKeepsLastDescription state its keys and values. |
| Table.CollectWords | main.py:52-60 | The table lists each word of the reply exactly once, and no other word. |
| Table.CollectKeepsLastDescription | main.py:53-58 | A repeated word keeps the description of its last pair. |
| Table.Dedup | main.py:58-60 | Reference definition: the distinct elements, with the same membership as the input. |
| Table.CollectWordsAreDedup | main.py:52-60 | The table's words are the pair words without repeats, in first-occurrence order. |
| Table.DedupFirstOccurrenceOrder | main.py:58-60 | Dedup lists elements in the order of their first occurrence. |
| Table.CollectFirstOccurrenceOrder | main.py:52-60 | A repeated word keeps the position of its first occurrence. |
| Table.Pairs | main.py:53-57 | Pair k is normalised line 2k with line 2k+1 as its description. |
| Table.CollectFirstWord | main.py:60-61 | The table's first word is the first pair's word. |
| Table.Tabulate | main.py:51-61 | An odd line count fails. No lines fails with an empty word list. Otherwise the table's words are the normalised word lines without repeats, in first-occurrence order. The table is non-empty and led by the normalised first line. |
| Table.TabulateKeepsLastDescription | main.py:53-58 | Each word of the table carries the description line that follows its last occurrence. |
| Table.ReplyNeverLacksWords | main.py:51-61 | A reply always has a line, so it never fails with an empty word list. |
| Occupancy.Lookup | main.py:99 | A letter found by `.get` is the letter of a stored entry on that cell. LookupFinds adds that nothing is found only when no entry is on the cell. |
| Occupancy.LookupFinds | main.py:99 | Lookup returns a cell's stored letter, or nothing when no entry is on the cell. |
| Occupancy.LookupEntry | main.py:99 | With distinct cells, lookup returns each entry's letter. |
| Occupancy.Store | main.py:80 | After an assignment, the cell holds the new letter. |
| Occupancy.StoreElsewhere | main.py:80 | An assignment leaves every other cell as it was. |
| Occupancy.StoreSameLetter | main.py:80 | Assigning the letter a cell already holds leaves the map unchanged. |
| Occupancy.StoreAppends | main.py:80 | Assigning a new cell appends one entry. |
| Occupancy.StoreKeepsCells | main.py:80 | Reassigning a stored cell keeps every entry's cell in place. |
| Occupancy.StoreKeepsDistinct | main.py:80 | Assignments keep one entry per cell. |
| Occupancy.StoreLetters | main.py:78-80 | Writing a word's letters never removes an entry. StoreLettersLookup states which letter each cell then holds. |
| Occupancy.StoreLettersLookup | main.py:77-80 | After a word's first n letters are written, a cell they cover holds the word's letter, and every other cell is unchanged. |
| Occupancy.StoreLettersKeepsDistinct | main.py:77-80 | Writing a word's letters keeps one entry per cell. |
| Occupancy.Rebuild | main.py:76-80 | The rebuilt map of the placements. RebuildLookup states its lookups against the independent LastLetter, and RebuildDomain its cells. |
| Occupancy.RebuildHasDistinctCells | main.py:76-80 | The rebuilt map has one entry per cell. |
| Occupancy.LastLetter | main.py:76-80 | Reference reading: no letter exactly when no placement covers the cell, otherwise the letter of a covering placement. |
| Occupancy.RebuildLookup | main.py:76-80 | The rebuilt map holds, for every cell, the letter of the last placement covering it. |
| Occupancy.RebuildLettersComeFromWords | main.py:76-80 | Every letter on the rebuilt map is a letter of some placed word. |
| Occupancy.RebuildDomain | main.py:76-80 | A cell is in the rebuilt map exactly when some placement covers it. |
| Occupancy.ConsistentLookup | main.py:76-80 | In a consistent layout, every placement covering a cell agrees with the map there. |
| Occupancy.Overlap | main.py:96-102 | Counts at most n letters, and zero exactly when none of the first n letters lands on an occupied cell. |
| Occupancy.OverlapCountsOccupiedIndices | main.py:96-102 | Reference reading of the count: the number of letter indices whose cells are occupied. |
| Occupancy.OverlapTouches | main.py:96-102 | A placement with an intersection shares a cell with some placed word. |
| Occupancy.ExtendConsistent | main.py:98-105 | Appending a placement that fits the map keeps every covered cell's letter agreed on. |
| Occupancy.StoreLettersGrows | main.py:78-80 | Writing a fitting word's letters only appends entries. Every stored entry keeps its letter and position. |
| Occupancy.RebuildGrows | main.py:76-80 | Appending a fitting placement only adds entries to the rebuilt map. |
| Search.Examine | main.py:96-105 | Valid exactly when every letter from i on agrees with the map. Then the count is the intersections from i on, and the loop ends on the last letter. Otherwise it stops at the first clashing letter from i on. |
| Search.Check | main.py:96-105 | Valid exactly when the placement fits the map. Then the count of intersections is its overlap with the map, and the loop ends on the last letter, whose value the rebound `letter` keeps. Otherwise it stops at the first clashing letter. |
| Search.Attempt | main.py:94-95 | The candidate puts the aligned letter on the anchor cell along the given axis. |
| Search.SameAlignmentSameTrial | main.py:94-95 | A candidate is determined by its word, axis, letter index and anchor. |
| Search.ScanCells | main.py:91-95 | Every candidate from the cell loop is aligned on one of the scanned cells, at the given index. |
| Search.ScanIndices | main.py:90-95 | Every candidate of a word is aligned on a stored cell at an index from li on. |
| Search.Trace | main.py:89-105 | Every examined candidate is for a pending word, is anchored on a stored cell, and carries the verdict of its check. |
| Search.ValidTrialIntersects | main.py:95-102 | A valid candidate has at least one intersection: its aligned letter is on a stored cell with that letter. |
| Search.Below | main.py:107 | Python's tuple `<` on (intersections, axis score). BelowIsStrictTotalOrder states that it is a strict total order. |
| Search.BelowIsStrictTotalOrder | main.py:107 | The comparison is asymmetric and transitive, and two scores neither of which is below the other are equal. |
| Search.BelowPastBest | main.py:106-107 | Lexicographic comparison: a score above the best is above every score the best was not below. |
| Search.PickFrom | main.py:106-108 | The running best is a valid candidate that no valid candidate beats. Every valid candidate before it is strictly below it. There is none only when nothing is valid. |
| Search.Pick | main.py:106-108 | The selection finds nothing exactly when no candidate is valid. Otherwise it is the first valid candidate of greatest score. |
| Search.PickIsFirstMaximal | main.py:106-108 | The first valid candidate of greatest score is the one selected. |
| Search.Step | main.py:88-110 | A round finds nothing exactly when no examined candidate is valid. Otherwise the kept candidate has these properties: it is examined and valid; it is for a pending word; it fits the map; it has at least one intersection; and its score is not below any valid candidate's. Among candidates of equal best score it is the first in examination order: every valid candidate examined before it scores strictly lower. |
| Search.CorrectedScanCellsCovers | main.py:91-95 | With the corrected filter, every stored cell carrying the word's letter at the index is tried, along every axis. |
| Search.CorrectedSearchFindsFittingPlacement | main.py:89-107 | With the corrected filter, every placement of a pending word that fits the map and intersects it is examined and valid. |
| Search.CorrectedStepStopsOnlyWhenNothingFits | main.py:109-110 | With the corrected filter, a round stops only when no pending word fits anywhere it would intersect the map. |
| Search.AsWrittenValidTrialIsCorrectedTrial | main.py:92-105 | Every valid candidate examined as written is also examined by the corrected search. The stale filter only loses candidates. |
| Search.UnsharedWordIsNeverExamined | main.py:91-93 | A pending word that shares no letter with the map yields no candidate. |
| Engine.DistinctPermutation | main.py:62 | Any iteration order of the set of distinct pending words lists each word once. |
| Engine.Remove | main.py:112 | Removing a word takes out exactly that word. |
| Engine.RemoveDistinct | main.py:112 | On distinct words, removal takes out exactly one occurrence. |
| Engine.Layout | main.py:75-112 | Earlier placements are never modified. Placed and dropped words together are the pending words. Words are dropped only when no candidate for them is valid on the final map. |
| Engine.LayoutAppendsAttachedPlacements | main.py:89-111 | Every appended placement fits the map before it and shares a cell with the placements before it. |
| Engine.LayoutKeepsConsistent | main.py:76-111 | Rounds keep the layout consistent: any two placements agree on every shared cell. |
| Engine.LayoutMapOnlyGrows | main.py:76-111 | The rebuilt map only grows: every earlier entry keeps its letter and position. |
| Engine.LayoutPlacesDistinctWords | main.py:62-112 | No word is placed twice, and placed and dropped words are pairwise distinct. |
| Engine.LayoutCount | main.py:75-112 | Each round appends exactly one placement and removes its word, or stops. So there are at most as many rounds as pending words. |
| Service.Arrange | main.py:60-112 | For every iteration order of the pending set, the first placement is the first word at the origin along X, and placed and dropped words together are the word list. |
| Service.ArrangeIsWellFormed | main.py:60-112 | For every iteration order, the final layout is consistent, and every word after the first is attached. No word appears twice, so the first word never comes back from the pending set. |
| Service.CorrectedArrangeDropsOnlyUnplaceableWords | main.py:109-112 | For every iteration order, with the corrected filter, a dropped word has no placement that fits the final map and shares a cell with it. |
| Service.UnsharedSecondWordIsDropped | main.py:89-112 | There is no fallback placement: a second word sharing no letter with the first is dropped, and the layout is the first word alone. |
| Service.ArrangePlacesListedWords | main.py:60-112 | For every iteration order, only words of the list are placed. |
| Service.Entries | main.py:114-121 | One entry per placement, with its word, axis, start cell and that word's description. |
| Service.Report | main.py:114-121 | The reply is named after the theme. It has one entry per placement of the layout, in order, with that placement's word, axis and start cell, and each entry carries its word's description. The first entry is the first word at the origin along X. |
| Service.Generate | main.py:34-121 | An empty theme is refused. An odd line count fails. A reply never fails for lack of words. A success is the report of the layout of the reply's word table, which starts with the normalised first line at the origin along X, and every entry carries its word's description. |
| Findings.MissedPlacementFits | main.py:96-105 | AB along X from (2, 0, 0) fits the map of ACA, AD and AE, with one intersection. |
| Findings.AsWrittenRoundFindsNothing | main.py:92-98 | As written, the round after AD and AE finds no valid candidate for AB, whatever the axis scores. |
| Findings.CorrectedRoundPlacesMissedWord | main.py:92-98 | With the corrected filter, the same round keeps a candidate for AB. |
| Findings.AsWrittenDropsFittingWord | main.py:89-112 | As written, the word list ACA, AD, AE, AB with Y preferred in round 0 and Z afterwards places AD and AE and drops AB, although AB fits and intersects. |

## Left out

- The Flask route and HTTP transport (main.py:30-37, 114-122 as JSON): the handler is a pure function from the theme and the generated reply to a puzzle or a failure.
- The text generation call and its prompt (main.py:7-19, 37-50): a foreign network call. Its reply text is a parameter of `Service.Generate`, and the HTTP 500 on its failure is not modelled.
- `random.random()` (main.py:83-87): the axis scores of each round are a parameter, `scores: nat -> AxisScores`.
- Search.AxisScores: scores are integers rather than floats in [0, 1), because only their order matters to the selection.
- Engine.Layout: the pending set is a sequence, and the search visits words in that order. Python's set iteration order depends on string hashing, so `Service.Arrange` takes the order as a parameter, any arrangement of the pending words, and its lemmas hold for every order.
- Service.Report: reports, and so Service.Generate returns, the layout searched in word-table order, one of the orders Python may use. Hashing is not modelled, so the handler's actual order is not determined.
- Text.UpperAll: works on ASCII: only a-z are mapped. Python's `upper` also maps non-ASCII letters (é to É) and can lengthen the string (ß to SS).
- Text.Normalize: works on ASCII. Python's `upper`, `\d` and `\W` also act on other Unicode characters, which the model drops as non-word characters.
- Text.Strip: strips ASCII whitespace only.
- The React frontend: it is not part of this model.

## Findings

| source | as written | input that shows it | evidently intended | confidence | as-written member | corrected member |
|---|---|---|---|---|---|---|
| main.py:92, 98 | The inner loop at line 98 rebinds `letter`. Once a cell has been tried, the filter at line 92 compares later cells with the last letter that loop examined, not with letter `letter_index` of the word, so matching cells are skipped. | Words ACA, AD, AE, AB, with the pending set iterated as AD, AE, AB (Python's set order depends on string hashing). Axis scores prefer Y in round 0 and Z afterwards. AD and AE are placed through the origin, then AB is dropped, although AB along X from (2, 0, 0) fits with one intersection. The three pending words play the same part, so in any iteration order the third one is the one dropped; only the order above is proved. | Every stored cell holding letter `letter_index` of the word is tried (the comment at lines 68-69). | not executed | Findings.AsWrittenDropsFittingWord | Search.CorrectedSearchFindsFittingPlacement |

=== FILE: engine.dfy ===
/**
 * The greedy placement loop (main.py lines 75-112): each round rebuilds the
 * map of placed letters, runs the search with that round's axis scores,
 * appends the kept candidate and removes its word from the pending words, and
 * stops when no word is pending or, with no fallback, when no candidate is
 * valid; the words still pending are then left out of the layout.
 */
module Engine {
  import opened Wrappers
  import opened Lattice
  import opened Occupancy
  import opened Search
  import opened Table

  /** The final layout and the pending words it never placed. */
  datatype Outcome = Outcome(crossword: seq<Placement>, dropped: seq<string>)

  /** The words of a sequence of placements, in order. */
  function PlacedWords(cw: seq<Placement>): (r: seq<string>)
    ensures |r| == |cw|
    ensures forall i :: 0 <= i < |cw| ==> r[i] == cw[i].word
  {
    seq(|cw|, i requires 0 <= i < |cw| => cw[i].word)
  }

  /** `words.remove(w)` on the pending words, kept in their iteration order. */
  function Remove(ws: seq<string>, w: string): (r: seq<string>)
    ensures |r| <= |ws|
    ensures forall v :: v in r <==> v in ws && v != w
    ensures w in ws ==> |r| < |ws|
    ensures w !in ws ==> r == ws
  {
    if |ws| == 0 then []
    else if ws[0] == w then Remove(ws[1..], w)
    else
      assert ws == [ws[0]] + ws[1..];
      [ws[0]] + Remove(ws[1..], w)
  }

  lemma DistinctCons(a: string, s: seq<string>)
    ensures Distinct([a] + s) <==> a !in s && Distinct(s)
  {
    var t := [a] + s;
    if Distinct(t) {
      forall i, j | 0 <= i < j < |s| ensures s[i] != s[j] {
        assert s[i] == t[i + 1] && s[j] == t[j + 1];
      }
      forall k | 0 <= k < |s| ensures s[k] != a {
        assert t[0] == a && t[k + 1] == s[k];
      }
    }
    if a !in s && Distinct(s) {
      forall i, j | 0 <= i < j < |t| ensures t[i] != t[j] {
        assert t[j] == s[j - 1];
        if i > 0 { assert t[i] == s[i - 1]; }
      }
    }
  }

  /** Each word occurs at most once in a list of distinct words. */
  lemma {:induction false} DistinctCount(s: seq<string>, x: string)
    requires Distinct(s)
    ensures multiset(s)[x] <= 1
  {
    if |s| > 0 {
      assert s == [s[0]] + s[1..];
      DistinctCons(s[0], s[1..]);
      DistinctCount(s[1..], x);
    }
  }

  /** Any rearrangement of distinct words, such as an iteration order of the
      pending set, is distinct. */
  lemma DistinctPermutation(a: seq<string>, b: seq<string>)
    requires multiset(a) == multiset(b) && Distinct(b)
    ensures Distinct(a)
  {
    forall i, j | 0 <= i < j < |a| ensures a[i] != a[j] {
      assert a == a[..j] + a[j..];
      assert a[..j][i] == a[i] && a[j..][0] == a[j];
      DistinctCount(b, a[i]);
    }
  }

  /** On distinct pending words, removal takes out exactly one occurrence. */
  lemma {:induction false} RemoveDistinct(ws: seq<string>, w: string)
    requires Distinct(ws)
    ensures Distinct(Remove(ws, w))
    ensures w in ws ==> multiset(Remove(ws, w)) + multiset{w} == multiset(ws)
    decreases |ws|
  {
    if |ws| > 0 {
      var tail := ws[1..];
      assert ws == [ws[0]] + tail;
      DistinctCons(ws[0], tail);
      RemoveDistinct(tail, w);
      var r' := Remove(tail, w);
      if ws[0] == w {
        assert Remove(ws, w) == r' == tail;
      } else {
        assert Remove(ws, w) == [ws[0]] + r';
        DistinctCons(ws[0], r');
        if w in ws {
          assert w in tail;
          calc {
            multiset([ws[0]] + r') + multiset{w};
            multiset{ws[0]} + (multiset(r') + multiset{w});
            multiset{ws[0]} + multiset(tail);
            multiset(ws);
          }
        }
      }
    }
  }

  /** The rounds from `round` on, starting from the layout `cw` with `pending` words left. */
  function Layout(cw: seq<Placement>, pending: seq<string>, scores: nat -> AxisScores, round: nat, mode: Mode)
    : (o: Outcome)
    requires Distinct(pending)
    ensures |cw| <= |o.crossword| && o.crossword[..|cw|] == cw
    ensures multiset(PlacedWords(o.crossword[|cw|..])) + multiset(o.dropped) == multiset(pending)
    ensures Distinct(o.dropped)
    ensures o.dropped != [] ==> forall t :: t in Trace(Rebuild(o.crossword), o.dropped, mode) ==> !t.verdict.valid
    decreases |pending|
  {
    if |pending| == 0 then Outcome(cw, [])
    else
      match Step(Rebuild(cw), pending, scores(round), mode)
      case None => Outcome(cw, pending)
      case Some(t) =>
        var p := t.placement;
        var rest := Remove(pending, p.word);
        RemoveDistinct(pending, p.word);
        var o := Layout(cw + [p], rest, scores, round + 1, mode);
        LayoutStepFacts(cw, p, cw + [p], rest, pending, o.crossword, o.dropped);
        o
  }

  /** Bookkeeping for one appended placement: the rounds after it keep `cw + [p]`
      as a prefix and account for the words left after removing `p`'s word. */
  lemma LayoutStepFacts(cw: seq<Placement>, p: Placement, next: seq<Placement>, rest: seq<string>,
                        pending: seq<string>, final: seq<Placement>, dropped: seq<string>)
    requires next == cw + [p]
    requires multiset(rest) + multiset{p.word} == multiset(pending)
    requires |next| <= |final| && final[..|next|] == next
    requires multiset(PlacedWords(final[|next|..])) + multiset(dropped) == multiset(rest)
    ensures |cw| <= |final| && final[..|cw|] == cw
    ensures multiset(PlacedWords(final[|cw|..])) + multiset(dropped) == multiset(pending)
  {
    assert final[..|cw|] == final[..|cw| + 1][..|cw|];
    assert final[|cw|] == final[..|cw| + 1][|cw|];
    var placed := PlacedWords(final[|cw| + 1..]);
    assert PlacedWords(final[|cw|..]) == [p.word] + placed;
  }

  /** Placement `i` of `cw` fits the map of the placements before it and shares a
      cell with them. */
  ghost predicate Attached(cw: seq<Placement>, i: nat)
    requires i < |cw|
  {
    Fits(Rebuild(cw[..i]), cw[i]) && Touches(cw[..i], cw[i])
  }

  /** Every placement of `cw` from position `n` on is attached. */
  ghost predicate AttachedFrom(cw: seq<Placement>, n: nat)
  {
    forall i :: n <= i < |cw| ==> Attached(cw, i)
  }

  /** A placement that fits and overlaps the map of the placements before it is attached. */
  lemma AttachedAt(final: seq<Placement>, cw: seq<Placement>, p: Placement, next: seq<Placement>)
    requires next == cw + [p]
    requires |next| <= |final| && final[..|next|] == next
    requires Fits(Rebuild(cw), p) && Overlap(Rebuild(cw), p, |p.word|) >= 1
    ensures Attached(final, |cw|)
  {
    assert final[..|cw|] == cw;
    assert final[|cw|] == p;
    OverlapTouches(cw, p);
  }

  /** One appended placement that fits and overlaps the map keeps every
      placement from `cw` on attached. */
  lemma AttachStep(cw: seq<Placement>, p: Placement, next: seq<Placement>, final: seq<Placement>)
    requires next == cw + [p]
    requires Fits(Rebuild(cw), p) && Overlap(Rebuild(cw), p, |p.word|) >= 1
    requires |next| <= |final| && final[..|next|] == next
    requires AttachedFrom(final, |next|)
    ensures AttachedFrom(final, |cw|)
  {
    AttachedAt(final, cw, p, next);
    forall i | |cw| <= i < |final| ensures Attached(final, i) {
      if i == |cw| {
      } else {
        assert |next| <= i;
      }
    }
  }

  /** Every appended placement fits the map of the placements before it and
      shares a cell with them (main.py lines 91-111). */
  lemma {:induction false} LayoutAppendsAttachedPlacements(
    cw: seq<Placement>, pending: seq<string>, scores: nat -> AxisScores, round: nat, mode: Mode)
    requires Distinct(pending)
    ensures AttachedFrom(Layout(cw, pending, scores, round, mode).crossword, |cw|)
    decreases |pending|
  {
    if |pending| > 0 {
      match Step(Rebuild(cw), pending, scores(round), mode)
      case None =>
      case Some(t) =>
        var p := t.placement;
        var rest := Remove(pending, p.word);
        RemoveDistinct(pending, p.word);
        LayoutAppendsAttachedPlacements(cw + [p], rest, scores, round + 1, mode);
        var o := Layout(cw + [p], rest, scores, round + 1, mode);
        AttachStep(cw, p, cw + [p], o.crossword);
    }
  }

  /** Rounds keep the layout consistent: any two placements put the same letter on
      a shared cell, so the map is well defined (main.py lines 76-80, 98-105). */
  lemma {:induction false} LayoutKeepsConsistent(
    cw: seq<Placement>, pending: seq<string>, scores: nat -> AxisScores, round: nat, mode: Mode)
    requires Distinct(pending) && Consistent(cw)
    ensures Consistent(Layout(cw, pending, scores, round, mode).crossword)
    decreases |pending|
  {
    if |pending| > 0 {
      match Step(Rebuild(cw), pending, scores(round), mode)
      case None =>
      case Some(t) =>
        var p := t.placement;
        RemoveDistinct(pending, p.word);
        ExtendConsistent(cw, p);
        LayoutKeepsConsistent(cw + [p], Remove(pending, p.word), scores, round + 1, mode);
    }
  }

  /** `before` is a prefix of `after`. */
  predicate IsPrefix(before: Board, after: Board)
  {
    |before| <= |after| && after[..|before|] == before
  }

  lemma PrefixTransitive(a: Board, b: Board, c: Board)
    requires IsPrefix(a, b) && IsPrefix(b, c)
    ensures IsPrefix(a, c)
  {
    assert c[..|a|] == c[..|b|][..|a|];
  }

  /** The map only grows: every entry of the map of `cw`, with its letter and its
      position, is still there after the remaining rounds (main.py lines 76-80). */
  lemma {:induction false} LayoutMapOnlyGrows(
    cw: seq<Placement>, pending: seq<string>, scores: nat -> AxisScores, round: nat, mode: Mode)
    requires Distinct(pending)
    ensures IsPrefix(Rebuild(cw), Rebuild(Layout(cw, pending, scores, round, mode).crossword))
    decreases |pending|
  {
    if |pending| > 0 {
      match Step(Rebuild(cw), pending, scores(round), mode)
      case None =>
      case Some(t) =>
        var p := t.placement;
        RemoveDistinct(pending, p.word);
        RebuildGrows(cw, p);
        LayoutMapOnlyGrows(cw + [p], Remove(pending, p.word), scores, round + 1, mode);
        var o := Layout(cw + [p], Remove(pending, p.word), scores, round + 1, mode);
        PrefixTransitive(Rebuild(cw), Rebuild(cw + [p]), Rebuild(o.crossword));
    }
  }

  lemma DistinctConcat(a: seq<string>, b: seq<string>)
    ensures Distinct(a + b) <==> Distinct(a) && Distinct(b) && forall v :: v in a ==> v !in b
  {
    var c := a + b;
    if Distinct(c) {
      forall i, j | 0 <= i < j < |a| ensures a[i] != a[j] {
        assert a[i] == c[i] && a[j] == c[j];
      }
      forall i, j | 0 <= i < j < |b| ensures b[i] != b[j] {
        assert b[i] == c[|a| + i] && b[j] == c[|a| + j];
      }
      forall i, j | 0 <= i < |a| && 0 <= j < |b| ensures a[i] != b[j] {
        assert c[i] == a[i] && c[|a| + j] == b[j];
      }
    }
    if Distinct(a) && Distinct(b) && forall v :: v in a ==> v !in b {
      forall i, j | 0 <= i < j < |c| ensures c[i] != c[j] {
        if j < |a| {
        } else if i >= |a| {
          assert c[i] == b[i - |a|] && c[j] == b[j - |a|];
        } else {
          assert c[i] in a && c[j] == b[j - |a|];
        }
      }
    }
  }

  /** No word is placed twice: placed and dropped words stay pairwise distinct when
      the pending words are distinct and not yet placed (main.py lines 62, 112). */
  lemma {:induction false} LayoutPlacesDistinctWords(
    cw: seq<Placement>, pending: seq<string>, scores: nat -> AxisScores, round: nat, mode: Mode)
    requires Distinct(PlacedWords(cw) + pending)
    ensures Distinct(pending)
    ensures var o := Layout(cw, pending, scores, round, mode);
            Distinct(PlacedWords(o.crossword) + o.dropped)
    decreases |pending|
  {
    DistinctConcat(PlacedWords(cw), pending);
    if |pending| > 0 {
      match Step(Rebuild(cw), pending, scores(round), mode)
      case None =>
      case Some(t) =>
        var p := t.placement;
        PlaceOneKeepsDistinct(cw, pending, p);
        LayoutPlacesDistinctWords(cw + [p], Remove(pending, p.word), scores, round + 1, mode);
    }
  }

  /** Moving one pending word to the layout keeps the words pairwise distinct. */
  lemma PlaceOneKeepsDistinct(cw: seq<Placement>, pending: seq<string>, p: Placement)
    requires Distinct(PlacedWords(cw) + pending) && p.word in pending
    ensures Distinct(PlacedWords(cw + [p]) + Remove(pending, p.word))
  {
    DistinctConcat(PlacedWords(cw), pending);
    var rest := Remove(pending, p.word);
    RemoveDistinct(pending, p.word);
    var placed := PlacedWords(cw + [p]);
    assert placed == PlacedWords(cw) + [p.word];
    DistinctConcat(PlacedWords(cw), [p.word]);
    DistinctConcat(placed, rest);
  }

  /** Each round places one word or stops: the layout gains at most one placement
      per pending word, and exactly one per word it does not drop. */
  lemma LayoutCount(cw: seq<Placement>, pending: seq<string>, scores: nat -> AxisScores, round: nat, mode: Mode)
    requires Distinct(pending)
    ensures var o := Layout(cw, pending, scores, round, mode);
            |o.crossword| - |cw| + |o.dropped| == |pending|
  {
    var o := Layout(cw, pending, scores, round, mode);
    assert |multiset(PlacedWords(o.crossword[|cw|..]))| + |multiset(o.dropped)| == |multiset(pending)|;
  }
}

=== FILE: findings.dfy ===
/**
 * A concrete run exhibiting the stale filter letter of main.py line 92 (the
 * loop of line 98 rebinds `letter`). The first word is ACA, the pending words
 * are AD, AE and AB, round 0 prefers Y and later rounds prefer Z. AD goes
 * along Y and AE along Z, both through the origin. In the next round the
 * search as written tries AB only on the origin: after the three clashing
 * axes there, the filter letter has become B, so the A at (2, 0, 0) is
 * skipped and AB is dropped, although it fits along X from that cell. The
 * corrected filter examines that cell and keeps a candidate for AB.
 */
module Findings {
  import opened Wrappers
  import opened Lattice
  import opened Occupancy
  import opened Search
  import opened Table
  import opened Engine
  import opened Service

  /** Round 0 prefers Y, every later round prefers Z. */
  function PreferYThenZ(round: nat): AxisScores
  {
    if round == 0 then AxisScores(0, 2, 1) else AxisScores(0, 1, 2)
  }

  /** The layout after AD and AE have been placed on the first A of ACA. */
  function Crossed(): seq<Placement>
  {
    [Placement("ACA", Origin, X), Placement("AD", Origin, Y), Placement("AE", Origin, Z)]
  }

  /** Where AB fits: along X from the last A of ACA. */
  function Missed(): Placement
  {
    Placement("AB", Cell(2, 0, 0), X)
  }

  /** The map of the crossed layout, entry by entry in insertion order. */
  function CrossedMap(): Board
  {
    [Square(Cell(0, 0, 0), 'A'), Square(Cell(1, 0, 0), 'C'), Square(Cell(2, 0, 0), 'A'),
     Square(Cell(0, -1, 0), 'D'), Square(Cell(0, 0, 1), 'E')]
  }

  /** The map after the first word ACA alone. */
  function AcaMap(): Board
  {
    [Square(Cell(0, 0, 0), 'A'), Square(Cell(1, 0, 0), 'C'), Square(Cell(2, 0, 0), 'A')]
  }

  /** The map after ACA and AD. */
  function AcaAdMap(): Board
  {
    AcaMap() + [Square(Cell(0, -1, 0), 'D')]
  }

  lemma AcaStep1()
    ensures StoreLetters([], Placement("ACA", Origin, X), 1) == [Square(Cell(0, 0, 0), 'A')]
  {
    assert "ACA"[0] == 'A';
  }

  lemma AcaStep2()
    ensures StoreLetters([], Placement("ACA", Origin, X), 2) == AcaMap()[..2]
  {
    AcaStep1();
    assert "ACA"[1] == 'C';
    StoreAppends([Square(Cell(0, 0, 0), 'A')], Cell(1, 0, 0), 'C');
  }

  lemma AcaStep3()
    ensures StoreLetters([], Placement("ACA", Origin, X), 3) == AcaMap()
  {
    AcaStep2();
    assert "ACA"[2] == 'A';
    StoreAppends(AcaMap()[..2], Cell(2, 0, 0), 'A');
  }

  lemma RebuildOne()
    ensures Rebuild([Placement("ACA", Origin, X)]) == AcaMap()
  {
    AcaStep3();
    assert [Placement("ACA", Origin, X)][..0] == [];
  }

  lemma AdSteps()
    ensures StoreLetters(AcaMap(), Placement("AD", Origin, Y), 2) == AcaAdMap()
  {
    var ad := Placement("AD", Origin, Y);
    assert "AD"[0] == 'A' && "AD"[1] == 'D';
    assert Lookup(AcaMap(), Cell(0, 0, 0)) == Some('A');
    StoreSameLetter(AcaMap(), Cell(0, 0, 0), 'A');
    assert StoreLetters(AcaMap(), ad, 1) == AcaMap();
    assert Lookup(AcaMap(), Cell(0, -1, 0)) == None;
    StoreAppends(AcaMap(), Cell(0, -1, 0), 'D');
  }

  lemma AeSteps()
    ensures StoreLetters(AcaAdMap(), Placement("AE", Origin, Z), 2) == CrossedMap()
  {
    var ae := Placement("AE", Origin, Z);
    assert "AE"[0] == 'A' && "AE"[1] == 'E';
    assert Lookup(AcaAdMap(), Cell(0, 0, 0)) == Some('A');
    StoreSameLetter(AcaAdMap(), Cell(0, 0, 0), 'A');
    assert StoreLetters(AcaAdMap(), ae, 1) == AcaAdMap();
    assert Lookup(AcaAdMap(), Cell(0, 0, 1)) == None;
    StoreAppends(AcaAdMap(), Cell(0, 0, 1), 'E');
  }

  lemma RebuildTwo()
    ensures Rebuild([Placement("ACA", Origin, X), Placement("AD", Origin, Y)]) == AcaAdMap()
  {
    RebuildOne();
    AdSteps();
    assert [Placement("ACA", Origin, X), Placement("AD", Origin, Y)][..1] == [Placement("ACA", Origin, X)];
  }

  lemma CrossedMapIsRebuilt()
    ensures Rebuild(Crossed()) == CrossedMap()
  {
    RebuildTwo();
    AeSteps();
    assert Crossed()[..2] == [Placement("ACA", Origin, X), Placement("AD", Origin, Y)];
  }

  /** AB fits the map of the crossed layout and shares a cell with it. */
  lemma MissedPlacementFits()
    ensures Fits(Rebuild(Crossed()), Missed())
    ensures Overlap(Rebuild(Crossed()), Missed(), 2) == 1
  {
    CrossedMapIsRebuilt();
    var b := CrossedMap();
    assert Lookup(b, Cell(2, 0, 0)) == Some('A');
    assert Lookup(b, Cell(3, 0, 0)) == None;
  }

  /** Cells that never carry the filter letter yield no candidates. */
  lemma {:induction false} ScanCellsSkipsOtherLetters(b: Board, w: string, li: nat, cells: Board, letter: char, mode: Mode)
    requires li < |w|
    requires forall e :: 0 <= e < |cells| ==> cells[e].letter != letter
    ensures ScanCells(b, w, li, cells, letter, mode) == []
    decreases |cells|
  {
    if |cells| > 0 {
      ScanCellsSkipsOtherLetters(b, w, li, cells[1..], letter, mode);
    }
  }

  /** A cell carrying the filter letter yields its three candidates, then the
      scan goes on with the letter the mode leaves behind. */
  lemma ScanCellsHit(b: Board, w: string, li: nat, cells: Board, letter: char, mode: Mode, next: char)
    requires li < |w| && |cells| > 0 && cells[0].letter == letter
    requires next == match mode
                     case AsWritten => w[Attempts(b, w, li, cells[0])[2].verdict.stop]
                     case Corrected => letter
    ensures ScanCells(b, w, li, cells, letter, mode)
         == Attempts(b, w, li, cells[0]) + ScanCells(b, w, li, cells[1..], next, mode)
  {
  }

  /** The verdict of a two-letter word on the origin whose first letter matches
      there, given what the cell of its second letter holds. */
  function TwoLetterVerdict(l: Option<char>, second: char): Verdict
  {
    if l.None? then Verdict(true, 1, 1)
    else if l == Some(second) then Verdict(true, 2, 1)
    else Verdict(false, 1, 1)
  }

  /** The check of a two-letter word starting on the origin, whose first letter
      is the origin's: it only depends on the cell of the second letter. */
  lemma CheckTwoLetters(b: Board, w: string, axis: Axis)
    requires |w| == 2 && Lookup(b, Origin) == Some(w[0])
    ensures Check(b, Placement(w, Origin, axis)) == TwoLetterVerdict(Lookup(b, LetterCell(1, Origin, axis)), w[1])
  {
    var p := Placement(w, Origin, axis);
    assert LetterCell(0, Origin, axis) == Origin;
    assert Examine(b, p, 0, 0) == Examine(b, p, 1, 1);
    assert Examine(b, p, 2, 1) == Verdict(true, 1, 1);
    assert Examine(b, p, 2, 2) == Verdict(true, 2, 1);
  }

  /** The candidate of a two-letter word aligned on the origin by its first letter. */
  function OriginTrial(w: string, axis: Axis, v: Verdict): Trial
  {
    Trial(Placement(w, Origin, axis), 0, Square(Origin, 'A'), v)
  }

  /** The candidates of a two-letter word on the origin, with their verdicts along X, Y and Z. */
  function OriginTrials(w: string, vx: Verdict, vy: Verdict, vz: Verdict): seq<Trial>
  {
    [OriginTrial(w, X, vx), OriginTrial(w, Y, vy), OriginTrial(w, Z, vz)]
  }

  /** Verdicts of a two-letter candidate: valid with one intersection, or a
      clash on its second letter. */
  function ValidOnce(): Verdict { Verdict(true, 1, 1) }
  function ClashOnSecond(): Verdict { Verdict(false, 1, 1) }

  /** The three candidates of a two-letter A-word on an origin entry holding A. */
  lemma OriginAttemptsAre(b: Board, w: string)
    requires |w| == 2 && w[0] == 'A' && |b| > 0 && b[0] == Square(Origin, 'A') && Lookup(b, Origin) == Some('A')
    ensures Attempts(b, w, 0, b[0])
         == OriginTrials(w, TwoLetterVerdict(Lookup(b, LetterCell(1, Origin, X)), w[1]),
                            TwoLetterVerdict(Lookup(b, LetterCell(1, Origin, Y)), w[1]),
                            TwoLetterVerdict(Lookup(b, LetterCell(1, Origin, Z)), w[1]))
  {
    assert LetterCell(-(0 as int), Origin, X) == Origin;
    assert LetterCell(-(0 as int), Origin, Y) == Origin;
    assert LetterCell(-(0 as int), Origin, Z) == Origin;
    CheckTwoLetters(b, w, X);
    CheckTwoLetters(b, w, Y);
    CheckTwoLetters(b, w, Z);
  }

  /** As written, a two-letter word whose second letter is nowhere on the map and
      whose leftover filter letter matches no later entry is examined on the
      first entry only. */
  lemma AsWrittenTwoLetterScan(b: Board, w: string, next: char)
    requires |w| == 2 && |b| > 0 && b[0].letter == w[0]
    requires next == w[Attempts(b, w, 0, b[0])[2].verdict.stop]
    requires forall e :: 1 <= e < |b| ==> b[e].letter != next
    requires forall e :: 0 <= e < |b| ==> b[e].letter != w[1]
    ensures ScanIndices(b, w, 0, AsWritten) == Attempts(b, w, 0, b[0])
  {
    var here := Attempts(b, w, 0, b[0]);
    ScanCellsHit(b, w, 0, b, w[0], AsWritten, next);
    ScanCellsSkipsOtherLetters(b, w, 0, b[1..], next, AsWritten);
    ScanCellsSkipsOtherLetters(b, w, 1, b, w[1], AsWritten);
    assert ScanIndices(b, w, 2, AsWritten) == [];
    assert ScanIndices(b, w, 1, AsWritten) == [];
    assert here + [] == here;
  }

  /** As written, when the Z candidate on the origin stops at the second letter
      and that letter is nowhere on the map, the origin candidates are all the
      word gets. */
  lemma AsWrittenOriginOnly(b: Board, w: string, ts: seq<Trial>)
    requires |w| == 2 && |b| > 0 && b[0].letter == w[0]
    requires Attempts(b, w, 0, b[0]) == ts && |ts| == 3 && ts[2].verdict.stop == 1
    requires forall e :: 0 <= e < |b| ==> b[e].letter != w[1]
    ensures ScanIndices(b, w, 0, AsWritten) == ts
  {
    AsWrittenTwoLetterScan(b, w, w[1]);
  }

  lemma TraceOfOne(b: Board, w: string, mode: Mode)
    ensures Trace(b, [w], mode) == ScanIndices(b, w, 0, mode)
  {
    assert [w][1..] == [];
    assert Trace(b, [w], mode) == ScanIndices(b, w, 0, mode) + [];
  }

  lemma TraceOfTwo(b: Board, v: string, w: string, mode: Mode)
    ensures Trace(b, [v, w], mode) == ScanIndices(b, v, 0, mode) + ScanIndices(b, w, 0, mode)
  {
    assert [v, w][1..] == [w];
    TraceOfOne(b, w, mode);
  }

  lemma TraceOfThree(b: Board, u: string, v: string, w: string, mode: Mode)
    ensures Trace(b, [u, v, w], mode)
         == ScanIndices(b, u, 0, mode) + ScanIndices(b, v, 0, mode) + ScanIndices(b, w, 0, mode)
  {
    assert [u, v, w][1..] == [v, w];
    TraceOfTwo(b, v, w, mode);
    var su, sv, sw := ScanIndices(b, u, 0, mode), ScanIndices(b, v, 0, mode), ScanIndices(b, w, 0, mode);
    assert su + (sv + sw) == su + sv + sw;
  }

  // ---------------------------------------------------------------------------
  // The maps of the run around the origin

  /** The map after ACA: C next to the origin along X, nothing along Y and Z. */
  predicate FirstMapShape(b: Board)
  {
    && |b| > 0 && b[0] == Square(Origin, 'A') && Lookup(b, Origin) == Some('A')
    && Lookup(b, LetterCell(1, Origin, X)) == Some('C')
    && Lookup(b, LetterCell(1, Origin, Y)).None?
    && Lookup(b, LetterCell(1, Origin, Z)).None?
    && forall e :: 0 <= e < |b| ==> b[e].letter == 'A' || b[e].letter == 'C'
  }

  /** The map after ACA and AD: D next to the origin along Y as well. */
  predicate SecondMapShape(b: Board)
  {
    && |b| > 0 && b[0] == Square(Origin, 'A') && Lookup(b, Origin) == Some('A')
    && Lookup(b, LetterCell(1, Origin, X)) == Some('C')
    && Lookup(b, LetterCell(1, Origin, Y)) == Some('D')
    && Lookup(b, LetterCell(1, Origin, Z)).None?
    && forall e :: 0 <= e < |b| ==> b[e].letter == 'A' || b[e].letter == 'C' || b[e].letter == 'D'
  }

  /** The crossed map: every neighbour of the origin along the axes is taken, and no entry holds B. */
  predicate CrossedShape(b: Board)
  {
    && |b| > 0 && b[0] == Square(Origin, 'A') && Lookup(b, Origin) == Some('A')
    && Lookup(b, LetterCell(1, Origin, X)) == Some('C')
    && Lookup(b, LetterCell(1, Origin, Y)) == Some('D')
    && Lookup(b, LetterCell(1, Origin, Z)) == Some('E')
    && forall e :: 0 <= e < |b| ==> b[e].letter != 'B'
  }

  lemma FirstMapLookups(b: Board)
    requires b == AcaMap()
    ensures FirstMapShape(b)
  {
    forall e | 0 <= e < |b|
      ensures b[e].cell != LetterCell(1, Origin, Y) && b[e].cell != LetterCell(1, Origin, Z)
      ensures b[e].letter == 'A' || b[e].letter == 'C'
    {
      assert e == 0 || e == 1 || e == 2;
    }
    LookupAbsent(b, LetterCell(1, Origin, Y));
    LookupAbsent(b, LetterCell(1, Origin, Z));
  }

  /** Lookup finds nothing on a cell no entry is on. */
  lemma {:induction false} LookupAbsent(b: Board, c: Cell)
    requires forall e :: 0 <= e < |b| ==> b[e].cell != c
    ensures Lookup(b, c).None?
    decreases |b|
  {
    if |b| > 0 {
      LookupAbsent(b[1..], c);
    }
  }

  lemma SecondMapLookups(b: Board)
    requires b == AcaAdMap()
    ensures SecondMapShape(b)
  {
    var c := LetterCell(1, Origin, Y);
    forall e | 0 <= e < |b|
      ensures e < 3 ==> b[e].cell != c
      ensures b[e].cell != LetterCell(1, Origin, Z)
      ensures b[e].letter == 'A' || b[e].letter == 'C' || b[e].letter == 'D'
    {
      assert e == 0 || e == 1 || e == 2 || e == 3;
    }
    LookupPast(b, 3, c);
    LookupAbsent(b, LetterCell(1, Origin, Z));
  }

  lemma CrossedLookups(b: Board)
    requires b == CrossedMap()
    ensures CrossedShape(b)
  {
    CrossedNeighbours(b);
    forall e | 0 <= e < |b| ensures b[e].letter != 'B' {
      assert e == 0 || e == 1 || e == 2 || e == 3 || e == 4;
    }
  }

  lemma CrossedNeighbours(b: Board)
    requires b == CrossedMap()
    ensures Lookup(b, Origin) == Some('A')
    ensures Lookup(b, LetterCell(1, Origin, X)) == Some('C')
    ensures Lookup(b, LetterCell(1, Origin, Y)) == Some('D')
    ensures Lookup(b, LetterCell(1, Origin, Z)) == Some('E')
  {
    LookupPast(b, 1, LetterCell(1, Origin, X));
    CellsBefore(b, 3, LetterCell(1, Origin, Y));
    LookupPast(b, 3, LetterCell(1, Origin, Y));
    CellsBefore(b, 4, LetterCell(1, Origin, Z));
    LookupPast(b, 4, LetterCell(1, Origin, Z));
  }

  /** The entries of the crossed map before entry `k` are not on `c`. */
  lemma CellsBefore(b: Board, k: nat, c: Cell)
    requires b == CrossedMap() && k <= 4
    requires c == Cell(0, -1, 0) || c == Cell(0, 0, 1)
    requires c == Cell(0, 0, 1) || k <= 3
    ensures forall e :: 0 <= e < k ==> b[e].cell != c
  {
    forall e | 0 <= e < k ensures b[e].cell != c {
      assert e == 0 || e == 1 || e == 2 || e == 3;
    }
  }

  /** Lookup skips the entries before the first one on the cell. */
  lemma {:induction false} LookupPast(b: Board, k: nat, c: Cell)
    requires k < |b| && b[k].cell == c
    requires forall e :: 0 <= e < k ==> b[e].cell != c
    ensures Lookup(b, c) == Some(b[k].letter)
    decreases k
  {
    if k > 0 {
      LookupPast(b[1..], k - 1, c);
    }
  }

  // ---------------------------------------------------------------------------
  // Round 2: the search as written finds nothing for AB

  /** As written, the three clashing origin candidates are all AB gets: the
      filter letter turns into B after the origin, hiding the A at (2, 0, 0). */
  lemma AsWrittenRoundTwoTrace(b: Board, w: string)
    requires CrossedShape(b) && w == "AB"
    ensures Trace(b, [w], AsWritten) == OriginTrials(w, ClashOnSecond(), ClashOnSecond(), ClashOnSecond())
  {
    assert w[0] == 'A' && w[1] == 'B';
    OriginAttemptsAre(b, w);
    AsWrittenOriginOnly(b, w, OriginTrials(w, ClashOnSecond(), ClashOnSecond(), ClashOnSecond()));
    TraceOfOne(b, w, AsWritten);
  }

  /** As written, the round after AD and AE finds no valid candidate for AB. */
  lemma AsWrittenRoundFindsNothing(s: AxisScores)
    ensures Step(Rebuild(Crossed()), ["AB"], s, AsWritten).None?
  {
    var b := Rebuild(Crossed());
    CrossedMapIsRebuilt();
    CrossedLookups(b);
    AsWrittenRoundTwoTrace(b, "AB");
    ClashingRoundStops(b, ["AB"], s, AsWritten, "AB");
  }

  /** A round whose candidates all clash keeps nothing. */
  lemma ClashingRoundStops(b: Board, ws: seq<string>, s: AxisScores, mode: Mode, w: string)
    requires Trace(b, ws, mode) == OriginTrials(w, ClashOnSecond(), ClashOnSecond(), ClashOnSecond())
    ensures Step(b, ws, s, mode).None?
  {
    forall t | t in OriginTrials(w, ClashOnSecond(), ClashOnSecond(), ClashOnSecond()) ensures !t.verdict.valid {
    }
  }

  /** With the corrected filter the same round keeps a candidate for AB. */
  lemma CorrectedRoundPlacesMissedWord(s: AxisScores)
    ensures Step(Rebuild(Crossed()), ["AB"], s, Corrected).Some?
  {
    MissedPlacementFits();
    CorrectedSearchFindsFittingPlacement(Rebuild(Crossed()), ["AB"], Missed());
  }

  // ---------------------------------------------------------------------------
  // Rounds 0 and 1: AD goes along Y, then AE along Z, both through the origin

  /** In round 0, a pending word clashes with C along X and is valid along Y and Z. */
  lemma RoundZeroWord(b: Board, w: string)
    requires FirstMapShape(b) && |w| == 2 && w[0] == 'A' && w[1] != 'A' && w[1] != 'C'
    ensures ScanIndices(b, w, 0, AsWritten) == OriginTrials(w, ClashOnSecond(), ValidOnce(), ValidOnce())
  {
    OriginAttemptsAre(b, w);
    AsWrittenOriginOnly(b, w, OriginTrials(w, ClashOnSecond(), ValidOnce(), ValidOnce()));
  }

  /** In round 1, a pending word clashes with C along X and with D along Y. */
  lemma RoundOneWord(b: Board, w: string)
    requires SecondMapShape(b) && |w| == 2 && w[0] == 'A' && w[1] != 'A' && w[1] != 'C' && w[1] != 'D'
    ensures ScanIndices(b, w, 0, AsWritten) == OriginTrials(w, ClashOnSecond(), ClashOnSecond(), ValidOnce())
  {
    OriginAttemptsAre(b, w);
    AsWrittenOriginOnly(b, w, OriginTrials(w, ClashOnSecond(), ClashOnSecond(), ValidOnce()));
  }

  /** Round 0 examines the three words on the origin only. */
  lemma RoundZeroTrace(b: Board)
    requires FirstMapShape(b)
    ensures Trace(b, ["AD", "AE", "AB"], AsWritten)
         == OriginTrials("AD", ClashOnSecond(), ValidOnce(), ValidOnce())
          + OriginTrials("AE", ClashOnSecond(), ValidOnce(), ValidOnce())
          + OriginTrials("AB", ClashOnSecond(), ValidOnce(), ValidOnce())
  {
    TraceOfThree(b, "AD", "AE", "AB", AsWritten);
    assert "AD"[0] == 'A' && "AD"[1] == 'D';
    assert "AE"[0] == 'A' && "AE"[1] == 'E';
    assert "AB"[0] == 'A' && "AB"[1] == 'B';
    RoundZeroWord(b, "AD");
    RoundZeroWord(b, "AE");
    RoundZeroWord(b, "AB");
  }

  /** When every candidate intersects equally, the first valid one on the axis
      with the top score is kept. */
  lemma PickFirstValidOnTopAxis(ts: seq<Trial>, s: AxisScores, k: nat)
    requires k < |ts| && ts[k].verdict.valid
    requires forall j :: 0 <= j < k ==> !ts[j].verdict.valid
    requires forall j :: 0 <= j < |ts| ==> ts[j].verdict.intersections == ts[k].verdict.intersections
    requires forall a :: Bias(s, a) <= Bias(s, ts[k].placement.axis)
    ensures Pick(ts, s) == Some(k)
  {
    PickIsFirstMaximal(ts, s, k);
  }

  /** Every candidate of three lists whose candidates intersect once intersects once. */
  lemma OneIntersectionEach(ts: seq<Trial>, a: seq<Trial>, b: seq<Trial>, c: seq<Trial>)
    requires ts == a + b + c
    requires forall j :: 0 <= j < |a| ==> a[j].verdict.intersections == 1
    requires forall j :: 0 <= j < |b| ==> b[j].verdict.intersections == 1
    requires forall j :: 0 <= j < |c| ==> c[j].verdict.intersections == 1
    ensures forall j :: 0 <= j < |ts| ==> ts[j].verdict.intersections == 1
  {
    forall j | 0 <= j < |ts| ensures ts[j].verdict.intersections == 1 {
      if j < |a| {
        assert ts[j] == a[j];
      } else if j < |a| + |b| {
        assert ts[j] == b[j - |a|];
      } else {
        assert ts[j] == c[j - |a| - |b|];
      }
    }
  }

  /** The kept trial of a round is the picked one of its candidates. */
  lemma StepKeepsPicked(b: Board, ws: seq<string>, s: AxisScores, mode: Mode, k: nat)
    requires Pick(Trace(b, ws, mode), s) == Some(k)
    ensures Step(b, ws, s, mode) == Some(Trace(b, ws, mode)[k])
  {
  }

  /** Round 0 prefers Y: the first Y candidate, AD, is kept. */
  lemma RoundZeroStep(b: Board)
    requires FirstMapShape(b)
    ensures Step(b, ["AD", "AE", "AB"], PreferYThenZ(0), AsWritten) == Some(OriginTrial("AD", Y, ValidOnce()))
  {
    RoundZeroTrace(b);
    RoundZeroPick();
    StepKeepsPicked(b, ["AD", "AE", "AB"], PreferYThenZ(0), AsWritten, 1);
  }

  lemma RoundZeroPick()
    ensures var ts := OriginTrials("AD", ClashOnSecond(), ValidOnce(), ValidOnce())
                    + OriginTrials("AE", ClashOnSecond(), ValidOnce(), ValidOnce())
                    + OriginTrials("AB", ClashOnSecond(), ValidOnce(), ValidOnce());
            Pick(ts, PreferYThenZ(0)) == Some(1) && ts[1] == OriginTrial("AD", Y, ValidOnce())
  {
    var a, b, c := OriginTrials("AD", ClashOnSecond(), ValidOnce(), ValidOnce()), OriginTrials("AE", ClashOnSecond(), ValidOnce(), ValidOnce()),
      OriginTrials("AB", ClashOnSecond(), ValidOnce(), ValidOnce());
    var ts := a + b + c;
    OneIntersectionEach(ts, a, b, c);
    assert ts[0] == OriginTrial("AD", X, ClashOnSecond()) && ts[1] == OriginTrial("AD", Y, ValidOnce());
    PickFirstValidOnTopAxis(ts, PreferYThenZ(0), 1);
  }

  /** Round 1 examines the two words on the origin only. */
  lemma RoundOneTrace(b: Board)
    requires SecondMapShape(b)
    ensures Trace(b, ["AE", "AB"], AsWritten)
         == OriginTrials("AE", ClashOnSecond(), ClashOnSecond(), ValidOnce()) + OriginTrials("AB", ClashOnSecond(), ClashOnSecond(), ValidOnce())
  {
    TraceOfTwo(b, "AE", "AB", AsWritten);
    assert "AE"[0] == 'A' && "AE"[1] == 'E';
    assert "AB"[0] == 'A' && "AB"[1] == 'B';
    RoundOneWord(b, "AE");
    RoundOneWord(b, "AB");
  }

  /** Round 1 prefers Z: the first Z candidate, AE, is kept. */
  lemma RoundOneStep(b: Board)
    requires SecondMapShape(b)
    ensures Step(b, ["AE", "AB"], PreferYThenZ(1), AsWritten) == Some(OriginTrial("AE", Z, ValidOnce()))
  {
    RoundOneTrace(b);
    RoundOnePick();
    StepKeepsPicked(b, ["AE", "AB"], PreferYThenZ(1), AsWritten, 2);
  }

  lemma RoundOnePick()
    ensures var ts := OriginTrials("AE", ClashOnSecond(), ClashOnSecond(), ValidOnce()) + OriginTrials("AB", ClashOnSecond(), ClashOnSecond(), ValidOnce());
            Pick(ts, PreferYThenZ(1)) == Some(2) && ts[2] == OriginTrial("AE", Z, ValidOnce())
  {
    var a, b := OriginTrials("AE", ClashOnSecond(), ClashOnSecond(), ValidOnce()), OriginTrials("AB", ClashOnSecond(), ClashOnSecond(), ValidOnce());
    var ts := a + b;
    OneIntersectionEach(ts, a, b, []);
    assert ts[0] == OriginTrial("AE", X, ClashOnSecond()) && ts[1] == OriginTrial("AE", Y, ClashOnSecond());
    assert ts[2] == OriginTrial("AE", Z, ValidOnce());
    PickFirstValidOnTopAxis(ts, PreferYThenZ(1), 2);
  }

  lemma ShadowedWordsAreDistinct()
    ensures Distinct(["AD", "AE", "AB"]) && Distinct(["AE", "AB"]) && Distinct(["AB"])
    ensures Distinct(["ACA", "AD", "AE", "AB"])
  {
    assert "AD"[1] != "AE"[1] && "AD"[1] != "AB"[1] && "AE"[1] != "AB"[1];
  }

  /** A round that keeps `t` appends its placement and removes its word. */
  lemma LayoutRound(cw: seq<Placement>, pending: seq<string>, scores: nat -> AxisScores, round: nat, mode: Mode,
                    t: Trial, next: seq<Placement>, rest: seq<string>)
    requires Distinct(pending) && |pending| > 0
    requires Step(Rebuild(cw), pending, scores(round), mode) == Some(t)
    requires next == cw + [t.placement] && rest == Remove(pending, t.placement.word)
    ensures Distinct(rest)
    ensures Layout(cw, pending, scores, round, mode) == Layout(next, rest, scores, round + 1, mode)
  {
    RemoveDistinct(pending, t.placement.word);
  }

  /** A round that keeps nothing ends the layout and drops the pending words. */
  lemma LayoutStops(cw: seq<Placement>, pending: seq<string>, scores: nat -> AxisScores, round: nat, mode: Mode)
    requires Distinct(pending) && |pending| > 0
    requires Step(Rebuild(cw), pending, scores(round), mode).None?
    ensures Layout(cw, pending, scores, round, mode) == Outcome(cw, pending)
  {
  }

  lemma ShadowedRemovals()
    ensures Remove(["AD", "AE", "AB"], "AD") == ["AE", "AB"]
    ensures Remove(["AE", "AB"], "AE") == ["AB"]
  {
    assert "AE" != "AD" && "AB" != "AD" && "AB" != "AE";
  }

  lemma AsWrittenRoundZero(cw: seq<Placement>, ws: seq<string>, next: seq<Placement>, rest: seq<string>)
    requires cw == [Placement("ACA", Origin, X)] && ws == ["AD", "AE", "AB"]
    requires next == [Placement("ACA", Origin, X), Placement("AD", Origin, Y)] && rest == ["AE", "AB"]
    ensures Distinct(ws) && Distinct(rest)
    ensures Layout(cw, ws, PreferYThenZ, 0, AsWritten) == Layout(next, rest, PreferYThenZ, 1, AsWritten)
  {
    ShadowedWordsAreDistinct();
    ShadowedRemovals();
    var t := OriginTrial("AD", Y, ValidOnce());
    assert cw + [t.placement] == next;
    RebuildOne();
    FirstMapLookups(AcaMap());
    RoundZeroStep(AcaMap());
    LayoutRound(cw, ws, PreferYThenZ, 0, AsWritten, t, next, rest);
  }

  lemma AsWrittenRoundOne(cw: seq<Placement>, ws: seq<string>, next: seq<Placement>, rest: seq<string>)
    requires cw == [Placement("ACA", Origin, X), Placement("AD", Origin, Y)] && ws == ["AE", "AB"]
    requires next == Crossed() && rest == ["AB"]
    ensures Distinct(ws) && Distinct(rest)
    ensures Layout(cw, ws, PreferYThenZ, 1, AsWritten) == Layout(next, rest, PreferYThenZ, 2, AsWritten)
  {
    ShadowedWordsAreDistinct();
    ShadowedRemovals();
    var t := OriginTrial("AE", Z, ValidOnce());
    assert cw + [t.placement] == next;
    RebuildTwo();
    SecondMapLookups(AcaAdMap());
    RoundOneStep(AcaAdMap());
    LayoutRound(cw, ws, PreferYThenZ, 1, AsWritten, t, next, rest);
  }

  lemma AsWrittenRoundTwo(cw: seq<Placement>, ws: seq<string>)
    requires cw == Crossed() && ws == ["AB"]
    ensures Layout(cw, ws, PreferYThenZ, 2, AsWritten) == Outcome(Crossed(), ["AB"])
  {
    AsWrittenRoundFindsNothing(PreferYThenZ(2));
    LayoutStops(cw, ws, PreferYThenZ, 2, AsWritten);
  }

  /** The run as written: AD and AE are placed through the origin, and AB,
      although it fits along X from (2, 0, 0), is dropped. */
  lemma AsWrittenDropsFittingWord(words: seq<string>)
    requires words == ["ACA", "AD", "AE", "AB"]
    ensures Distinct(words)
    ensures Arrange(words, words[1..], PreferYThenZ, AsWritten) == Outcome(Crossed(), ["AB"])
    ensures Missed().word == "AB"
    ensures Fits(Rebuild(Crossed()), Missed()) && Overlap(Rebuild(Crossed()), Missed(), 2) == 1
  {
    ShadowedWordsAreDistinct();
    var cw0, cw1 := [Placement("ACA", Origin, X)], [Placement("ACA", Origin, X), Placement("AD", Origin, Y)];
    var ws0, ws1, ws2 := ["AD", "AE", "AB"], ["AE", "AB"], ["AB"];
    AsWrittenRoundZero(cw0, ws0, cw1, ws1);
    AsWrittenRoundOne(cw1, ws1, Crossed(), ws2);
    AsWrittenRoundTwo(Crossed(), ws2);
    assert words[1..] == ws0;
    assert Arrange(words, words[1..], PreferYThenZ, AsWritten) == Layout(cw0, ws0, PreferYThenZ, 0, AsWritten);
    MissedPlacementFits();
  }
}

=== FILE: lattice.dfy ===
/**
 * The three-axis integer lattice on which words are laid out, and the
 * placement of one word on it (`word_letter_position`, main.py lines 21-28).
 */
module Lattice {
  import opened Wrappers

  /** The three placement directions. */
  datatype Axis = X | Y | Z

  /** A lattice cell. */
  datatype Cell = Cell(x: int, y: int, z: int)

  /** The cell every layout starts from. */
  const Origin := Cell(0, 0, 0)

  /** A word bound to the cell of its first letter and the axis it runs along. */
  datatype Placement = Placement(word: string, start: Cell, axis: Axis)

  /** The cell of letter `index` of a word starting at `start` along `axis`:
      X adds to x, Y subtracts from y, Z adds to z. Any integer index is allowed. */
  function LetterCell(index: int, start: Cell, axis: Axis): Cell
  {
    match axis
    case X => Cell(start.x + index, start.y, start.z)
    case Y => Cell(start.x, start.y - index, start.z)
    case Z => Cell(start.x, start.y, start.z + index)
  }

  /** The unit step of an axis, written as a vector. */
  function Unit(axis: Axis): Cell
  {
    match axis
    case X => Cell(1, 0, 0)
    case Y => Cell(0, -1, 0)
    case Z => Cell(0, 0, 1)
  }

  /** Vector form of the lattice arithmetic: letter `i` sits `i` unit steps from the start. */
  lemma LetterCellIsScaledUnit(i: int, start: Cell, axis: Axis)
    ensures var u := Unit(axis);
            LetterCell(i, start, axis) == Cell(start.x + i * u.x, start.y + i * u.y, start.z + i * u.z)
  {
  }

  /** Index zero is the start cell itself. */
  lemma IndexZeroIsStart(start: Cell, axis: Axis)
    ensures LetterCell(0, start, axis) == start
  {
  }

  /** Stepping along an axis only moves the coordinate of that axis. */
  lemma LetterCellMovesOneCoordinate(i: int, start: Cell, axis: Axis)
    ensures var c := LetterCell(i, start, axis);
            && (axis == X ==> c.y == start.y && c.z == start.z && c.x == start.x + i)
            && (axis == Y ==> c.x == start.x && c.z == start.z && c.y == start.y - i)
            && (axis == Z ==> c.x == start.x && c.y == start.y && c.z == start.z + i)
  {
  }

  /** Steps along one axis compose additively. */
  lemma LetterCellCompose(i: int, j: int, start: Cell, axis: Axis)
    ensures LetterCell(i, LetterCell(j, start, axis), axis) == LetterCell(i + j, start, axis)
  {
  }

  /** Stepping back `k` and forward `k` along the same axis returns to the cell:
      the start computed for a candidate puts its letter `k` on the matched cell. */
  lemma StepBackThenForward(k: int, cell: Cell, axis: Axis)
    ensures LetterCell(k, LetterCell(-k, cell, axis), axis) == cell
  {
    LetterCellCompose(k, -k, cell, axis);
  }

  /** Distinct letters of one word never share a cell. */
  lemma LetterCellInjective(i: int, j: int, start: Cell, axis: Axis)
    ensures LetterCell(i, start, axis) == LetterCell(j, start, axis) <==> i == j
  {
  }

  /** The index at which a line through `start` along `axis` reaches `c`, if it does. */
  function Offset(start: Cell, axis: Axis, c: Cell): (r: Option<int>)
    ensures r.Some? ==> LetterCell(r.value, start, axis) == c
    ensures r.None? ==> forall i :: LetterCell(i, start, axis) != c
  {
    match axis
    case X => if c.y == start.y && c.z == start.z then Some(c.x - start.x) else None
    case Y => if c.x == start.x && c.z == start.z then Some(start.y - c.y) else None
    case Z => if c.x == start.x && c.y == start.y then Some(c.z - start.z) else None
  }

  /** `Offset` inverts `LetterCell`. */
  lemma OffsetOfLetterCell(i: int, start: Cell, axis: Axis)
    ensures Offset(start, axis, LetterCell(i, start, axis)) == Some(i)
  {
  }

  /** The letter a placement puts on cell `c`, if it covers `c`. */
  function LetterAt(p: Placement, c: Cell): (r: Option<char>)
    ensures r.Some? <==> exists k :: 0 <= k < |p.word| && LetterCell(k, p.start, p.axis) == c
    ensures forall k :: 0 <= k < |p.word| && LetterCell(k, p.start, p.axis) == c ==> r == Some(p.word[k])
  {
    match Offset(p.start, p.axis, c)
    case Some(k) => if 0 <= k < |p.word| then Some(p.word[k]) else None
    case None => None
  }

  /** Letter `k` of a placed word is what the placement puts on its cell. */
  lemma LetterAtLetterCell(p: Placement, k: int)
    requires 0 <= k < |p.word|
    ensures LetterAt(p, LetterCell(k, p.start, p.axis)) == Some(p.word[k])
  {
  }
}

=== FILE: occupancy.dfy ===
/**
 * The map of currently placed letters (`current_letters`, main.py lines 76-80):
 * rebuilt from scratch every round by writing every letter of every placement,
 * in order, into a dictionary keyed by cell. The dictionary keeps its keys in
 * first-insertion order and a later write to an existing key replaces the
 * letter in place; it records only a letter per cell, no axes.
 */
module Occupancy {
  import opened Wrappers
  import opened Lattice

  /** One entry of the map: a cell and the letter written on it. */
  datatype Square = Square(cell: Cell, letter: char)

  /** The map, as its entries in insertion order. */
  type Board = seq<Square>

  predicate DistinctCells(b: Board)
  {
    forall i, j :: 0 <= i < j < |b| ==> b[i].cell != b[j].cell
  }

  /** Dictionary lookup `current_letters.get(c)`: a letter found is the letter of
      an entry on the cell. */
  function Lookup(b: Board, c: Cell): (r: Option<char>)
    ensures r.Some? ==> exists i :: 0 <= i < |b| && b[i] == Square(c, r.value)
  {
    if |b| == 0 then None
    else if b[0].cell == c then Some(b[0].letter)
    else Lookup(b[1..], c)
  }

  /** Lookup finds an entry on the cell exactly when there is one, and then its letter. */
  lemma {:induction false} LookupFinds(b: Board, c: Cell)
    ensures Lookup(b, c).Some? ==> exists i :: 0 <= i < |b| && b[i] == Square(c, Lookup(b, c).value)
    ensures Lookup(b, c).None? ==> forall i :: 0 <= i < |b| ==> b[i].cell != c
  {
    if |b| > 0 && b[0].cell != c {
      LookupFinds(b[1..], c);
      if Lookup(b, c).Some? {
        var i :| 0 <= i < |b| - 1 && b[1..][i] == Square(c, Lookup(b, c).value);
        assert b[i + 1] == b[1..][i];
      }
    } else if |b| > 0 {
      assert b[0] == Square(c, Lookup(b, c).value);
    }
  }

  /** With distinct cells, an entry is exactly what lookup returns for its cell. */
  lemma LookupEntry(b: Board, i: nat)
    requires DistinctCells(b) && i < |b|
    ensures Lookup(b, b[i].cell) == Some(b[i].letter)
  {
    if i > 0 && b[0].cell != b[i].cell {
      LookupEntry(b[1..], i - 1);
    }
  }

  /** Dictionary assignment `current_letters[c] = l`. */
  function Store(b: Board, c: Cell, l: char): (r: Board)
    ensures Lookup(r, c) == Some(l)
  {
    if |b| == 0 then [Square(c, l)]
    else if b[0].cell == c then [Square(c, l)] + b[1..]
    else
      var rest := Store(b[1..], c, l);
      var r := [b[0]] + rest;
      assert r[1..] == rest;
      r
  }

  /** Writing one cell leaves every other cell as it was. */
  lemma {:induction false} StoreElsewhere(b: Board, c: Cell, l: char, d: Cell)
    requires d != c
    ensures Lookup(Store(b, c, l), d) == Lookup(b, d)
  {
    if |b| > 0 && b[0].cell != c {
      StoreElsewhere(b[1..], c, l, d);
      assert Store(b, c, l)[1..] == Store(b[1..], c, l);
    }
  }

  /** Writing the letter a cell already holds changes nothing. */
  lemma {:induction false} StoreSameLetter(b: Board, c: Cell, l: char)
    requires Lookup(b, c) == Some(l)
    ensures Store(b, c, l) == b
  {
    if b[0].cell != c {
      StoreSameLetter(b[1..], c, l);
      assert b == [b[0]] + b[1..];
    }
  }

  /** Writing to a cell not in the map appends an entry. */
  lemma {:induction false} StoreAppends(b: Board, c: Cell, l: char)
    requires Lookup(b, c).None?
    ensures Store(b, c, l) == b + [Square(c, l)]
  {
    if |b| > 0 {
      StoreAppends(b[1..], c, l);
      assert b == [b[0]] + b[1..];
    }
  }

  /** Writing to a stored cell keeps every cell in place. */
  lemma {:induction false} StoreKeepsCells(b: Board, c: Cell, l: char)
    requires Lookup(b, c).Some?
    ensures |Store(b, c, l)| == |b|
    ensures forall i :: 0 <= i < |b| ==> Store(b, c, l)[i].cell == b[i].cell
  {
    if b[0].cell != c {
      StoreKeepsCells(b[1..], c, l);
    }
  }

  /** Writing keeps the cells of the map distinct. */
  lemma StoreKeepsDistinct(b: Board, c: Cell, l: char)
    requires DistinctCells(b)
    ensures DistinctCells(Store(b, c, l))
  {
    if Lookup(b, c).None? {
      StoreAppends(b, c, l);
    } else {
      StoreKeepsCells(b, c, l);
    }
  }

  /** The map after writing the first `n` letters of `p`, in order, over `b`. */
  function StoreLetters(b: Board, p: Placement, n: nat): (r: Board)
    requires n <= |p.word|
    ensures |b| <= |r|
  {
    if n == 0 then b
    else
      var prev := StoreLetters(b, p, n - 1);
      var c := LetterCell(n - 1, p.start, p.axis);
      StoreSize(prev, c, p.word[n - 1]);
      Store(prev, c, p.word[n - 1])
  }

  /** Writing never removes an entry. */
  lemma StoreSize(b: Board, c: Cell, l: char)
    ensures |b| <= |Store(b, c, l)|
  {
    if Lookup(b, c).None? {
      StoreAppends(b, c, l);
    } else {
      StoreKeepsCells(b, c, l);
    }
  }

  lemma {:induction false} StoreLettersKeepsDistinct(b: Board, p: Placement, n: nat)
    requires n <= |p.word| && DistinctCells(b)
    ensures DistinctCells(StoreLetters(b, p, n))
  {
    if n > 0 {
      StoreLettersKeepsDistinct(b, p, n - 1);
      StoreKeepsDistinct(StoreLetters(b, p, n - 1), LetterCell(n - 1, p.start, p.axis), p.word[n - 1]);
    }
  }

  /** The letter that one of the first `n` letters of `p` puts on `c`, if any. */
  function PrefixLetter(p: Placement, n: nat, c: Cell): Option<char>
    requires n <= |p.word|
  {
    match Offset(p.start, p.axis, c)
    case Some(k) => if 0 <= k < n then Some(p.word[k]) else None
    case None => None
  }

  /** After writing letters `0..n-1` of `p`, a cell holds the letter `p` put on it
      if it is one of those letters' cells, and its old content otherwise. */
  lemma {:induction false} StoreLettersLookup(b: Board, p: Placement, n: nat, c: Cell)
    requires n <= |p.word|
    ensures var t := PrefixLetter(p, n, c);
            Lookup(StoreLetters(b, p, n), c) == if t.Some? then t else Lookup(b, c)
  {
    if n > 0 {
      StoreLettersLookup(b, p, n - 1, c);
      var d := LetterCell(n - 1, p.start, p.axis);
      var prev := StoreLetters(b, p, n - 1);
      assert StoreLetters(b, p, n) == Store(prev, d, p.word[n - 1]);
      PrefixLetterStep(p, n, c);
      if Offset(p.start, p.axis, c) == Some(n - 1) {
        assert d == c;
      } else {
        OtherOffsetOtherCell(n - 1, p.start, p.axis, c);
        StoreElsewhere(prev, d, p.word[n - 1], c);
      }
    }
  }

  /** One more letter covers one more cell: the cell of letter `n - 1`. */
  lemma PrefixLetterStep(p: Placement, n: nat, c: Cell)
    requires 0 < n <= |p.word|
    ensures PrefixLetter(p, n, c)
         == if Offset(p.start, p.axis, c) == Some(n - 1) then Some(p.word[n - 1]) else PrefixLetter(p, n - 1, c)
  {
  }

  lemma OtherOffsetOtherCell(i: int, start: Cell, axis: Axis, c: Cell)
    requires Offset(start, axis, c) != Some(i)
    ensures LetterCell(i, start, axis) != c
  {
    OffsetOfLetterCell(i, start, axis);
  }

  /** The map of the letters of a sequence of placements (main.py lines 76-80). */
  function Rebuild(cw: seq<Placement>): Board
  {
    if |cw| == 0 then []
    else
      var last := cw[|cw| - 1];
      StoreLetters(Rebuild(cw[..|cw| - 1]), last, |last.word|)
  }

  /** The rebuilt map has one entry per cell. */
  lemma {:induction false} RebuildHasDistinctCells(cw: seq<Placement>)
    ensures DistinctCells(Rebuild(cw))
    decreases |cw|
  {
    if |cw| > 0 {
      var last := cw[|cw| - 1];
      RebuildHasDistinctCells(cw[..|cw| - 1]);
      StoreLettersKeepsDistinct(Rebuild(cw[..|cw| - 1]), last, |last.word|);
    }
  }

  /** Reference reading of the rebuilt map: the letter of the last placement that covers `c`. */
  function LastLetter(cw: seq<Placement>, c: Cell): (r: Option<char>)
    ensures r.None? <==> forall j :: 0 <= j < |cw| ==> LetterAt(cw[j], c).None?
    ensures r.Some? ==> exists j :: 0 <= j < |cw| && LetterAt(cw[j], c) == r
  {
    if |cw| == 0 then None
    else
      var t := LetterAt(cw[|cw| - 1], c);
      if t.Some? then t
      else
        var r := LastLetter(cw[..|cw| - 1], c);
        assert forall j :: 0 <= j < |cw| - 1 ==> cw[..|cw| - 1][j] == cw[j];
        r
  }

  /** The rebuilt map holds, for every cell, the letter of the last placement covering it. */
  lemma {:induction false} RebuildLookup(cw: seq<Placement>, c: Cell)
    ensures Lookup(Rebuild(cw), c) == LastLetter(cw, c)
    decreases |cw|
  {
    if |cw| > 0 {
      var last := cw[|cw| - 1];
      RebuildLookup(cw[..|cw| - 1], c);
      StoreLettersLookup(Rebuild(cw[..|cw| - 1]), last, |last.word|, c);
      assert PrefixLetter(last, |last.word|, c) == LetterAt(last, c);
    }
  }

  /** Every letter on the rebuilt map is a letter of some placed word. */
  lemma RebuildLettersComeFromWords(cw: seq<Placement>, e: nat)
    requires e < |Rebuild(cw)|
    ensures exists j :: 0 <= j < |cw| && Rebuild(cw)[e].letter in cw[j].word
  {
    var b := Rebuild(cw);
    RebuildHasDistinctCells(cw);
    LookupEntry(b, e);
    RebuildLookup(cw, b[e].cell);
    var j :| 0 <= j < |cw| && LetterAt(cw[j], b[e].cell) == Some(b[e].letter);
    var k :| 0 <= k < |cw[j].word| && LetterCell(k, cw[j].start, cw[j].axis) == b[e].cell;
    assert cw[j].word[k] == b[e].letter;
  }

  /** Some placement puts a letter on `c`. */
  ghost predicate Covered(cw: seq<Placement>, c: Cell)
  {
    exists j :: 0 <= j < |cw| && LetterAt(cw[j], c).Some?
  }

  /** Placements that cover a common cell put the same letter on it. */
  ghost predicate Consistent(cw: seq<Placement>)
  {
    forall i, j, c :: 0 <= i < |cw| && 0 <= j < |cw| && LetterAt(cw[i], c).Some? && LetterAt(cw[j], c).Some?
      ==> LetterAt(cw[i], c) == LetterAt(cw[j], c)
  }

  /** A cell is in the rebuilt map exactly when some placement covers it. */
  lemma RebuildDomain(cw: seq<Placement>, c: Cell)
    ensures Lookup(Rebuild(cw), c).Some? <==> Covered(cw, c)
  {
    RebuildLookup(cw, c);
  }

  /** In a consistent layout the map is well defined: every placement covering a
      cell finds its own letter there. */
  lemma ConsistentLookup(cw: seq<Placement>, i: nat, c: Cell)
    requires Consistent(cw) && i < |cw| && LetterAt(cw[i], c).Some?
    ensures Lookup(Rebuild(cw), c) == LetterAt(cw[i], c)
  {
    RebuildLookup(cw, c);
  }

  /** Placing `p` over the map clashes with no stored letter (main.py lines 99-105). */
  predicate Fits(b: Board, p: Placement)
  {
    forall k :: 0 <= k < |p.word| ==> Agrees(b, p, k)
  }

  /** Letter `k` of `p` lands on a free cell or on a cell holding that letter. */
  predicate Agrees(b: Board, p: Placement, k: nat)
    requires k < |p.word|
  {
    var l := Lookup(b, LetterCell(k, p.start, p.axis));
    l.None? || l == Some(p.word[k])
  }

  /** How many of the first `n` letters of `p` land on occupied cells. */
  function Overlap(b: Board, p: Placement, n: nat): (r: nat)
    requires n <= |p.word|
    ensures r <= n
    ensures r == 0 <==> forall k :: 0 <= k < n ==> Lookup(b, LetterCell(k, p.start, p.axis)).None?
  {
    if n == 0 then 0
    else Overlap(b, p, n - 1) + (if Lookup(b, LetterCell(n - 1, p.start, p.axis)).Some? then 1 else 0)
  }

  /** The indices among the first `n` of `p` whose cells are occupied. */
  function OccupiedIndices(b: Board, p: Placement, n: nat): set<nat>
  {
    set k: nat | k < n && Lookup(b, LetterCell(k, p.start, p.axis)).Some?
  }

  /** Reference reading of the count: the number of letter indices of `p`
      below `n` whose cells are occupied. */
  lemma {:induction false} OverlapCountsOccupiedIndices(b: Board, p: Placement, n: nat)
    requires n <= |p.word|
    ensures Overlap(b, p, n) == |OccupiedIndices(b, p, n)|
  {
    if n > 0 {
      OverlapCountsOccupiedIndices(b, p, n - 1);
      var prev, here := OccupiedIndices(b, p, n - 1), OccupiedIndices(b, p, n);
      if Lookup(b, LetterCell(n - 1, p.start, p.axis)).Some? {
        assert here == prev + {n - 1};
        assert n - 1 !in prev;
      } else {
        assert here == prev;
      }
    }
  }

  /** `p` shares at least one cell with the placements `cw`. */
  ghost predicate Touches(cw: seq<Placement>, p: Placement)
  {
    exists k :: 0 <= k < |p.word| && Covered(cw, LetterCell(k, p.start, p.axis))
  }

  /** A placement that overlaps the rebuilt map touches the layout. */
  lemma OverlapTouches(cw: seq<Placement>, p: Placement)
    requires Overlap(Rebuild(cw), p, |p.word|) > 0
    ensures Touches(cw, p)
  {
    var k :| 0 <= k < |p.word| && Lookup(Rebuild(cw), LetterCell(k, p.start, p.axis)).Some?;
    RebuildDomain(cw, LetterCell(k, p.start, p.axis));
  }

  /** Appending a placement that fits the map keeps the layout consistent. */
  lemma ExtendConsistent(cw: seq<Placement>, p: Placement)
    requires Consistent(cw) && Fits(Rebuild(cw), p)
    ensures Consistent(cw + [p])
  {
    var cw' := cw + [p];
    forall i, j, c | 0 <= i < |cw'| && 0 <= j < |cw'| && LetterAt(cw'[i], c).Some? && LetterAt(cw'[j], c).Some?
      ensures LetterAt(cw'[i], c) == LetterAt(cw'[j], c)
    {
      if i < |cw| && j < |cw| {
        assert cw'[i] == cw[i] && cw'[j] == cw[j];
      } else if i < |cw| || j < |cw| {
        var old_ := if i < |cw| then i else j;
        assert cw'[old_] == cw[old_];
        ConsistentLookup(cw, old_, c);
        var k := Offset(p.start, p.axis, c).value;
        assert LetterCell(k, p.start, p.axis) == c;
        assert Agrees(Rebuild(cw), p, k);
      }
    }
  }

  /** Writing letters that agree with the map never changes a stored entry: the
      old map is a prefix of the new one. */
  lemma {:induction false} StoreLettersGrows(b: Board, p: Placement, n: nat)
    requires n <= |p.word| && Fits(b, p)
    ensures |b| <= |StoreLetters(b, p, n)| && StoreLetters(b, p, n)[..|b|] == b
  {
    if n > 0 {
      StoreLettersGrows(b, p, n - 1);
      var c := LetterCell(n - 1, p.start, p.axis);
      NextCellUntouched(b, p, n - 1);
      assert Agrees(b, p, n - 1);
      StoreGrows(StoreLetters(b, p, n - 1), b, c, p.word[n - 1]);
    }
  }

  /** Writing a letter that agrees with the map keeps every earlier entry. */
  lemma StoreGrows(prev: Board, b: Board, c: Cell, l: char)
    requires |b| <= |prev| && prev[..|b|] == b
    requires Lookup(prev, c).None? || Lookup(prev, c) == Some(l)
    ensures |b| <= |Store(prev, c, l)| && Store(prev, c, l)[..|b|] == b
  {
    if Lookup(prev, c).None? {
      StoreAppends(prev, c, l);
      assert (prev + [Square(c, l)])[..|b|] == prev[..|b|];
    } else {
      StoreSameLetter(prev, c, l);
    }
  }

  /** Writing the first `n` letters of `p` leaves the cell of letter `n` as it was. */
  lemma NextCellUntouched(b: Board, p: Placement, n: nat)
    requires n < |p.word|
    ensures Lookup(StoreLetters(b, p, n), LetterCell(n, p.start, p.axis)) == Lookup(b, LetterCell(n, p.start, p.axis))
  {
    var c := LetterCell(n, p.start, p.axis);
    StoreLettersLookup(b, p, n, c);
    OffsetOfLetterCell(n, p.start, p.axis);
  }

  /** Appending a fitting placement only adds entries to the rebuilt map: no
      stored letter changes and no cell moves (main.py line 80). */
  lemma RebuildGrows(cw: seq<Placement>, p: Placement)
    requires Fits(Rebuild(cw), p)
    ensures var before := Rebuild(cw);
            var after := Rebuild(cw + [p]);
            |before| <= |after| && after[..|before|] == before
  {
    assert (cw + [p])[..|cw|] == cw;
    StoreLettersGrows(Rebuild(cw), p, |p.word|);
  }
}

=== FILE: search.dfy ===
/**
 * One round of the greedy search (main.py lines 83-108): every pending word,
 * every letter index, every stored cell whose letter passes the filter, and
 * every axis give a candidate start; the candidate is checked letter by
 * letter against the map, and the valid candidate with the lexicographically
 * greatest (intersections, axis score) is kept, the first one on ties.
 */
module Search {
  import opened Wrappers
  import opened Lattice
  import opened Occupancy

  /** Which letter the cell filter of main.py line 92 compares with. */
  datatype Mode =
    | AsWritten  // the `letter` variable as the loop of line 98 left it (that loop rebinds it)
    | Corrected  // the letter at `letter_index`, which the filter evidently means

  /** Result of the letter-by-letter check (lines 96-105): whether no letter clashes,
      how many letters fell on occupied cells, and the index at which the loop stopped
      (the first clash, or the last letter). */
  datatype Verdict = Verdict(valid: bool, intersections: nat, stop: nat)

  /** The check from letter `i` on, with `n` intersections counted so far. */
  function Examine(b: Board, p: Placement, i: nat, n: nat): (v: Verdict)
    requires 0 < |p.word| && i <= |p.word|
    ensures v.stop < |p.word|
    ensures v.valid <==> forall k :: i <= k < |p.word| ==> Agrees(b, p, k)
    ensures v.valid ==> v.intersections == n + Overlap(b, p, |p.word|) - Overlap(b, p, i)
    ensures v.valid ==> v.stop == |p.word| - 1
    ensures !v.valid ==>
              (&& i <= v.stop
               && Lookup(b, LetterCell(v.stop, p.start, p.axis)).Some?
               && Lookup(b, LetterCell(v.stop, p.start, p.axis)) != Some(p.word[v.stop]))
    ensures !v.valid ==> forall k :: i <= k < v.stop ==> Agrees(b, p, k)
    decreases |p.word| - i
  {
    if i == |p.word| then Verdict(true, n, |p.word| - 1)
    else
      var l := Lookup(b, LetterCell(i, p.start, p.axis));
      assert Overlap(b, p, i + 1) == Overlap(b, p, i) + (if l.Some? then 1 else 0);
      assert Agrees(b, p, i) <==> l.None? || l == Some(p.word[i]);
      match l
      case None => Examine(b, p, i + 1, n)
      case Some(c) => if p.word[i] == c then Examine(b, p, i + 1, n + 1) else Verdict(false, n, i)
  }

  /** The whole check of a candidate. */
  function Check(b: Board, p: Placement): (v: Verdict)
    requires 0 < |p.word|
    ensures v.stop < |p.word|
    ensures v.valid <==> Fits(b, p)
    ensures v.valid ==> v.intersections == Overlap(b, p, |p.word|)
    ensures v.valid ==> v.stop == |p.word| - 1
    ensures !v.valid ==> !Agrees(b, p, v.stop) && forall k :: 0 <= k < v.stop ==> Agrees(b, p, k)
  {
    Examine(b, p, 0, 0)
  }

  /** One examined candidate: the placement, the letter index it was aligned on,
      the stored entry it was aligned with, and the check's verdict. */
  datatype Trial = Trial(placement: Placement, index: nat, anchor: Square, verdict: Verdict)

  /** The candidate aligning letter `li` of `w` with the stored cell `anchor` along `axis` (line 95). */
  function Attempt(b: Board, w: string, li: nat, anchor: Square, axis: Axis): (t: Trial)
    requires li < |w|
    ensures LetterCell(li, t.placement.start, axis) == anchor.cell
    ensures Aligned(b, t) && t.anchor == anchor && t.index == li && t.placement.word == w && t.placement.axis == axis
  {
    StepBackThenForward(li, anchor.cell, axis);
    var p := Placement(w, LetterCell(-(li as int), anchor.cell, axis), axis);
    Trial(p, li, anchor, Check(b, p))
  }

  /** A trial whose placement puts its aligned letter on its anchor cell and
      whose verdict is the check of that placement on `b`. */
  predicate Aligned(b: Board, t: Trial)
  {
    && t.index < |t.placement.word|
    && t.placement.start == LetterCell(-(t.index as int), t.anchor.cell, t.placement.axis)
    && t.verdict == Check(b, t.placement)
  }

  /** An aligned trial is determined by its word, axis, index and anchor. */
  lemma SameAlignmentSameTrial(b: Board, t: Trial, u: Trial)
    requires Aligned(b, t) && Aligned(b, u)
    requires t.placement.word == u.placement.word && t.placement.axis == u.placement.axis
    requires t.index == u.index && t.anchor == u.anchor
    ensures t == u
  {
    assert t.placement == u.placement;
  }

  /** A trial the search can produce on board `b` for the pending words `ws`. */
  predicate Sound(b: Board, ws: seq<string>, t: Trial)
  {
    t.placement.word in ws && t.anchor in b && Aligned(b, t)
  }

  /** The three candidates of one stored cell, in the order X, Y, Z (line 94). */
  function Attempts(b: Board, w: string, li: nat, anchor: Square): seq<Trial>
    requires li < |w|
  {
    [Attempt(b, w, li, anchor, X), Attempt(b, w, li, anchor, Y), Attempt(b, w, li, anchor, Z)]
  }

  /** The loop over stored cells (lines 91-93) for letter index `li`, given the
      letter the filter currently compares with. */
  function ScanCells(b: Board, w: string, li: nat, cells: Board, letter: char, mode: Mode): (r: seq<Trial>)
    requires li < |w|
    ensures forall t :: t in r ==> t.anchor in cells && t.index == li && t.placement.word == w && Aligned(b, t)
    decreases |cells|
  {
    if |cells| == 0 then []
    else if letter != cells[0].letter then ScanCells(b, w, li, cells[1..], letter, mode)
    else
      var here := Attempts(b, w, li, cells[0]);
      var next := match mode
        case AsWritten => w[here[2].verdict.stop]
        case Corrected => letter;
      var rest := ScanCells(b, w, li, cells[1..], next, mode);
      AnchorsInCells(here, rest, cells);
      here + rest
  }

  lemma AnchorsInCells(here: seq<Trial>, rest: seq<Trial>, cells: Board)
    requires |cells| > 0
    requires forall t :: t in here ==> t.anchor == cells[0]
    requires forall t :: t in rest ==> t.anchor in cells[1..]
    ensures forall t :: t in here + rest ==> t.anchor in cells
  {
    assert cells == [cells[0]] + cells[1..];
  }

  /** The loop over letter indices (line 90) from `li` on; each index resets the filter letter. */
  function ScanIndices(b: Board, w: string, li: nat, mode: Mode): (r: seq<Trial>)
    requires li <= |w|
    ensures forall t :: t in r ==> t.anchor in b && li <= t.index && t.placement.word == w && Aligned(b, t)
    decreases |w| - li
  {
    if li == |w| then []
    else ScanCells(b, w, li, b, w[li], mode) + ScanIndices(b, w, li + 1, mode)
  }

  /** Every candidate of one round, in the order the loops of lines 89-105 examine them. */
  function Trace(b: Board, ws: seq<string>, mode: Mode): (r: seq<Trial>)
    ensures forall t :: t in r ==> Sound(b, ws, t)
  {
    if |ws| == 0 then []
    else ScanIndices(b, ws[0], 0, mode) + Trace(b, ws[1..], mode)
  }

  /** A stored cell is found by lookup. */
  lemma StoredCellIsOccupied(b: Board, s: Square)
    requires s in b
    ensures Lookup(b, s.cell).Some?
  {
  }

  /** A valid trial shares at least one cell with the map: its aligned letter
      lies on the stored cell it came from (lines 95, 99). */
  lemma ValidTrialIntersects(b: Board, ws: seq<string>, t: Trial)
    requires Sound(b, ws, t) && t.verdict.valid
    ensures t.verdict.intersections >= 1
    ensures Overlap(b, t.placement, |t.placement.word|) >= 1
  {
    var p := t.placement;
    StepBackThenForward(t.index, t.anchor.cell, p.axis);
    assert LetterCell(t.index, p.start, p.axis) == t.anchor.cell;
    StoredCellIsOccupied(b, t.anchor);
  }

  // ---------------------------------------------------------------------------
  // Scoring and selection (lines 83-87, 106-108)

  /** The per-axis scores of one round (`direction_score`). */
  datatype AxisScores = AxisScores(x: int, y: int, z: int)

  function Bias(s: AxisScores, axis: Axis): int
  {
    match axis
    case X => s.x
    case Y => s.y
    case Z => s.z
  }

  /** A candidate's score `(intersections, direction_score[direction])`. */
  datatype Score = Score(intersections: nat, bias: int)

  /** Python's tuple comparison `a < b` on scores. */
  predicate Below(a: Score, b: Score)
  {
    a.intersections < b.intersections || (a.intersections == b.intersections && a.bias < b.bias)
  }

  /** The comparison is a strict total order: asymmetric, transitive, and two
      scores neither of which is below the other are equal. */
  lemma BelowIsStrictTotalOrder(a: Score, b: Score, c: Score)
    ensures Below(a, b) ==> !Below(b, a)
    ensures Below(a, b) && Below(b, c) ==> Below(a, c)
    ensures !Below(a, b) && !Below(b, a) ==> a == b
  {
  }

  /** A score above the best so far is above everything the best was not below. */
  lemma BelowPastBest(best: Score, other: Score, next: Score)
    requires !Below(best, other) && Below(best, next)
    ensures Below(other, next) && !Below(next, other)
  {
  }

  function ScoreOf(t: Trial, s: AxisScores): Score
  {
    Score(t.verdict.intersections, Bias(s, t.placement.axis))
  }

  /** The running best of lines 107-108 over trials `i..`, given the best index so far. */
  function PickFrom(ts: seq<Trial>, s: AxisScores, i: nat, best: Option<nat>): (r: Option<nat>)
    requires i <= |ts|
    requires best.Some? ==> best.value < i && ts[best.value].verdict.valid
    requires best.Some? ==> forall j :: 0 <= j < i && ts[j].verdict.valid ==>
               !Below(ScoreOf(ts[best.value], s), ScoreOf(ts[j], s))
    requires best.Some? ==> forall j :: 0 <= j < best.value && ts[j].verdict.valid ==>
               Below(ScoreOf(ts[j], s), ScoreOf(ts[best.value], s))
    requires best.None? ==> forall j :: 0 <= j < i ==> !ts[j].verdict.valid
    ensures r.None? <==> forall j :: 0 <= j < |ts| ==> !ts[j].verdict.valid
    ensures r.Some? ==> r.value < |ts| && ts[r.value].verdict.valid
    ensures r.Some? ==> forall j :: 0 <= j < |ts| && ts[j].verdict.valid ==>
              !Below(ScoreOf(ts[r.value], s), ScoreOf(ts[j], s))
    ensures r.Some? ==> forall j :: 0 <= j < r.value && ts[j].verdict.valid ==>
              Below(ScoreOf(ts[j], s), ScoreOf(ts[r.value], s))
    decreases |ts| - i
  {
    if i == |ts| then best
    else
      var t := ts[i];
      if t.verdict.valid && (best.None? || Below(ScoreOf(ts[best.value], s), ScoreOf(t, s))) then
        assert forall j :: 0 <= j < i && ts[j].verdict.valid ==>
          Below(ScoreOf(ts[j], s), ScoreOf(t, s)) && !Below(ScoreOf(t, s), ScoreOf(ts[j], s)) by {
          forall j | 0 <= j < i && ts[j].verdict.valid
            ensures Below(ScoreOf(ts[j], s), ScoreOf(t, s)) && !Below(ScoreOf(t, s), ScoreOf(ts[j], s))
          {
            BelowPastBest(ScoreOf(ts[best.value], s), ScoreOf(ts[j], s), ScoreOf(t, s));
          }
        }
        PickFrom(ts, s, i + 1, Some(i))
      else
        PickFrom(ts, s, i + 1, best)
  }

  /** The index of the trial a round keeps: a valid one whose score no valid trial
      exceeds, and the first such (the comparison is strict), or None when no
      trial is valid. */
  function Pick(ts: seq<Trial>, s: AxisScores): (r: Option<nat>)
    ensures r.None? <==> forall j :: 0 <= j < |ts| ==> !ts[j].verdict.valid
    ensures r.Some? ==> r.value < |ts| && ts[r.value].verdict.valid
    ensures r.Some? ==> forall j :: 0 <= j < |ts| && ts[j].verdict.valid ==>
              !Below(ScoreOf(ts[r.value], s), ScoreOf(ts[j], s))
    ensures r.Some? ==> forall j :: 0 <= j < r.value && ts[j].verdict.valid ==>
              Below(ScoreOf(ts[j], s), ScoreOf(ts[r.value], s))
  {
    PickFrom(ts, s, 0, None)
  }

  /** The kept trial is determined: it is the one valid trial that no valid trial
      exceeds and that strictly exceeds every valid trial before it. */
  lemma PickIsFirstMaximal(ts: seq<Trial>, s: AxisScores, k: nat)
    requires k < |ts| && ts[k].verdict.valid
    requires forall j :: 0 <= j < |ts| && ts[j].verdict.valid ==> !Below(ScoreOf(ts[k], s), ScoreOf(ts[j], s))
    requires forall j :: 0 <= j < k && ts[j].verdict.valid ==> Below(ScoreOf(ts[j], s), ScoreOf(ts[k], s))
    ensures Pick(ts, s) == Some(k)
  {
  }

  /** One round of the search: the kept trial, or None when nothing is valid.
      Among trials of equal best score the first examined is kept, because every
      valid trial before it scores strictly lower. */
  function Step(b: Board, ws: seq<string>, s: AxisScores, mode: Mode): (r: Option<Trial>)
    ensures r.None? <==> forall t :: t in Trace(b, ws, mode) ==> !t.verdict.valid
    ensures r.Some? ==> r.value in Trace(b, ws, mode) && r.value.verdict.valid
    ensures r.Some? ==> r.value.placement.word in ws && Fits(b, r.value.placement)
    ensures r.Some? ==> r.value.verdict.intersections == Overlap(b, r.value.placement, |r.value.placement.word|) >= 1
    ensures r.Some? ==> forall t :: t in Trace(b, ws, mode) && t.verdict.valid ==>
              !Below(ScoreOf(r.value, s), ScoreOf(t, s))
    ensures r.Some? ==> exists k :: (0 <= k < |Trace(b, ws, mode)| && Trace(b, ws, mode)[k] == r.value &&
              (forall j :: 0 <= j < k && Trace(b, ws, mode)[j].verdict.valid ==>
                 Below(ScoreOf(Trace(b, ws, mode)[j], s), ScoreOf(r.value, s))))
  {
    var ts := Trace(b, ws, mode);
    match Pick(ts, s)
    case None => None
    case Some(k) =>
      ValidTrialIntersects(b, ws, ts[k]);
      Some(ts[k])
  }

  // ---------------------------------------------------------------------------
  // Which candidates each filter examines

  /** With the corrected filter, every stored cell carrying the letter at `li`
      yields its candidates. */
  lemma {:induction false} CorrectedScanCellsCovers(b: Board, w: string, li: nat, cells: Board, e: nat, axis: Axis)
    requires li < |w| && e < |cells| && cells[e].letter == w[li]
    ensures Attempt(b, w, li, cells[e], axis) in ScanCells(b, w, li, cells, w[li], Corrected)
    decreases |cells|
  {
    if e > 0 {
      CorrectedScanCellsCovers(b, w, li, cells[1..], e - 1, axis);
    }
  }

  lemma {:induction false} ScanIndicesCovers(b: Board, w: string, li: nat, k: nat, mode: Mode, t: Trial)
    requires li <= k < |w| && t in ScanCells(b, w, k, b, w[k], mode)
    ensures t in ScanIndices(b, w, li, mode)
    decreases k - li
  {
    var head := ScanCells(b, w, li, b, w[li], mode);
    var tail := ScanIndices(b, w, li + 1, mode);
    assert ScanIndices(b, w, li, mode) == head + tail;
    if li < k {
      ScanIndicesCovers(b, w, li + 1, k, mode, t);
      assert t in tail;
    } else {
      assert t in head;
    }
  }

  lemma {:induction false} TraceCovers(b: Board, ws: seq<string>, i: nat, mode: Mode, t: Trial)
    requires i < |ws| && t in ScanIndices(b, ws[i], 0, mode)
    ensures t in Trace(b, ws, mode)
    decreases i
  {
    if i > 0 {
      TraceCovers(b, ws[1..], i - 1, mode, t);
    }
  }

  /** The corrected search examines every placement of a pending word that fits
      the map and shares a cell with it. */
  lemma CorrectedSearchFindsFittingPlacement(b: Board, ws: seq<string>, p: Placement)
    requires p.word in ws && Fits(b, p) && Overlap(b, p, |p.word|) >= 1
    ensures exists t :: t in Trace(b, ws, Corrected) && t.placement == p && t.verdict.valid
  {
    var w := p.word;
    var k :| 0 <= k < |w| && Lookup(b, LetterCell(k, p.start, p.axis)).Some?;
    var c := LetterCell(k, p.start, p.axis);
    var l := Lookup(b, c).value;
    LookupFinds(b, c);
    var e :| 0 <= e < |b| && b[e] == Square(c, l);
    assert Agrees(b, p, k);
    assert l == w[k];
    CorrectedScanCellsCovers(b, w, k, b, e, p.axis);
    var t := Attempt(b, w, k, b[e], p.axis);
    LetterCellCompose(-(k as int), k, p.start, p.axis);
    assert t.placement == p;
    ScanIndicesCovers(b, w, 0, k, Corrected, t);
    var i :| 0 <= i < |ws| && ws[i] == w;
    TraceCovers(b, ws, i, Corrected, t);
  }

  /** Hence a corrected round stops only when no pending word fits anywhere it
      would touch the layout. */
  lemma CorrectedStepStopsOnlyWhenNothingFits(b: Board, ws: seq<string>, s: AxisScores, p: Placement)
    requires Step(b, ws, s, Corrected).None?
    requires p.word in ws && Fits(b, p)
    ensures Overlap(b, p, |p.word|) == 0
  {
    if Overlap(b, p, |p.word|) >= 1 {
      CorrectedSearchFindsFittingPlacement(b, ws, p);
    }
  }

  /** Every valid candidate the search as written examines, the corrected search
      examines too: the stale filter letter only hides candidates. */
  lemma AsWrittenValidTrialIsCorrectedTrial(b: Board, ws: seq<string>, t: Trial)
    requires DistinctCells(b)
    requires t in Trace(b, ws, AsWritten) && t.verdict.valid
    ensures t in Trace(b, ws, Corrected)
  {
    var p := t.placement;
    var w := p.word;
    var e :| 0 <= e < |b| && b[e] == t.anchor;
    LookupEntry(b, e);
    StepBackThenForward(t.index, t.anchor.cell, p.axis);
    assert LetterCell(t.index, p.start, p.axis) == t.anchor.cell;
    assert Agrees(b, p, t.index);
    assert t.anchor.letter == w[t.index];
    CorrectedScanCellsCovers(b, w, t.index, b, e, p.axis);
    SameAlignmentSameTrial(b, Attempt(b, w, t.index, b[e], p.axis), t);
    ScanIndicesCovers(b, w, 0, t.index, Corrected, t);
    var i :| 0 <= i < |ws| && ws[i] == w;
    TraceCovers(b, ws, i, Corrected, t);
  }

  // ---------------------------------------------------------------------------
  // No fallback placement (lines 109-110)

  /** A word none of whose letters is on the map yields no candidate: the filter
      letter is always one of the word's letters, in either mode. */
  lemma {:induction false} UnsharedScanCellsIsEmpty(b: Board, w: string, li: nat, cells: Board, letter: char, mode: Mode)
    requires li < |w| && letter in w
    requires forall e :: 0 <= e < |cells| ==> cells[e].letter !in w
    ensures ScanCells(b, w, li, cells, letter, mode) == []
    decreases |cells|
  {
    if |cells| > 0 {
      UnsharedScanCellsIsEmpty(b, w, li, cells[1..], letter, mode);
    }
  }

  lemma {:induction false} UnsharedScanIndicesIsEmpty(b: Board, w: string, li: nat, mode: Mode)
    requires li <= |w|
    requires forall e :: 0 <= e < |b| ==> b[e].letter !in w
    ensures ScanIndices(b, w, li, mode) == []
    decreases |w| - li
  {
    if li < |w| {
      UnsharedScanCellsIsEmpty(b, w, li, b, w[li], mode);
      UnsharedScanIndicesIsEmpty(b, w, li + 1, mode);
    }
  }

  /** There is no fallback: a pending word that shares no letter with the map is
      never examined, so a round never places it. */
  lemma {:induction false} UnsharedWordIsNeverExamined(b: Board, ws: seq<string>, mode: Mode, w: string)
    requires forall e :: 0 <= e < |b| ==> b[e].letter !in w
    ensures forall t :: t in Trace(b, ws, mode) ==> t.placement.word != w
    decreases |ws|
  {
    if |ws| > 0 {
      UnsharedWordIsNeverExamined(b, ws[1..], mode, w);
      if ws[0] == w {
        UnsharedScanIndicesIsEmpty(b, w, 0, mode);
      }
    }
  }
}

=== FILE: service.dfy ===
/**
 * The request handler of main.py (lines 32-122) around the placement engine:
 * an empty theme is refused, the generated reply is read into the word table,
 * the first word is laid at the origin along X, the remaining words go
 * through the layout loop, and each placement is reported with its word,
 * axis, start cell and description. The text generation service is not
 * modelled: its reply is a parameter, as are the per-round axis scores.
 */
module Service {
  import opened Wrappers
  import opened Lattice
  import opened Occupancy
  import opened Search
  import opened Text
  import opened Table
  import opened Engine

  /** Why the handler produces no crossword. */
  datatype Failure =
    | EmptyTheme              // HTTP 400, main.py:35-36
    | Unreadable(reason: Error)  // the reply cannot be read as word/description pairs

  /** One reported word: the objects of the `words` list of lines 116-121. */
  datatype Entry = Entry(word: string, direction: Axis, start: Cell, description: string)

  /** The handler's reply: the theme as name and the placed words in placement order. */
  datatype Puzzle = Puzzle(name: string, entries: seq<Entry>)

  /** The first word's placement (line 61). */
  function Seed(first: string): Placement
  {
    Placement(first, Origin, X)
  }

  /** A single placement is consistent with itself. */
  lemma SingleConsistent(p: Placement)
    ensures Consistent([p])
  {
  }

  /** The whole layout of a word list: the first word seeds the layout and the
      others are pending (lines 60-62, 75-112). The pending set of line 62 is
      searched in `order`, any arrangement of the other words: Python's set
      iteration order depends on string hashing. */
  function Arrange(words: seq<string>, order: seq<string>, scores: nat -> AxisScores, mode: Mode): (o: Outcome)
    requires |words| > 0 && Distinct(words) && multiset(order) == multiset(words[1..])
    ensures |o.crossword| >= 1 && o.crossword[0] == Seed(words[0])
    ensures multiset(PlacedWords(o.crossword)) + multiset(o.dropped) == multiset(words)
  {
    assert words == [words[0]] + words[1..];
    DistinctCons(words[0], words[1..]);
    DistinctPermutation(order, words[1..]);
    var o := Layout([Seed(words[0])], order, scores, 0, mode);
    SeedFacts(words, [Seed(words[0])], o.crossword, o.dropped);
    o
  }

  /** Bookkeeping for the seeded layout: its first placement is the seed and its
      words with the dropped ones are the word list. */
  lemma SeedFacts(words: seq<string>, seed: seq<Placement>, final: seq<Placement>, dropped: seq<string>)
    requires |words| > 0 && seed == [Seed(words[0])]
    requires |seed| <= |final| && final[..|seed|] == seed
    requires multiset(PlacedWords(final[|seed|..])) + multiset(dropped) == multiset(words[1..])
    ensures |final| >= 1 && final[0] == Seed(words[0])
    ensures multiset(PlacedWords(final)) + multiset(dropped) == multiset(words)
  {
    assert final[0] == final[..1][0];
    assert PlacedWords(final) == [words[0]] + PlacedWords(final[1..]);
    assert words == [words[0]] + words[1..];
  }

  /** The arranged layout has no clash, every placement after the first fits the
      map before it and shares a cell with it, and no word appears twice. */
  lemma ArrangeIsWellFormed(words: seq<string>, order: seq<string>, scores: nat -> AxisScores, mode: Mode)
    requires |words| > 0 && Distinct(words) && multiset(order) == multiset(words[1..])
    ensures var o := Arrange(words, order, scores, mode);
            Consistent(o.crossword) && AttachedFrom(o.crossword, 1) &&
            Distinct(PlacedWords(o.crossword) + o.dropped)
  {
    var seed := [Seed(words[0])];
    assert words == [words[0]] + words[1..];
    DistinctCons(words[0], words[1..]);
    DistinctPermutation(order, words[1..]);
    SingleConsistent(Seed(words[0]));
    LayoutKeepsConsistent(seed, order, scores, 0, mode);
    LayoutAppendsAttachedPlacements(seed, order, scores, 0, mode);
    assert PlacedWords(seed) + order == [words[0]] + order;
    DistinctPermutation([words[0]] + order, words);
    LayoutPlacesDistinctWords(seed, order, scores, 0, mode);
  }

  /** With the corrected filter, a word is left out only when no placement of it
      fits the final map and shares a cell with it. */
  lemma CorrectedArrangeDropsOnlyUnplaceableWords(words: seq<string>, order: seq<string>, scores: nat -> AxisScores, p: Placement)
    requires |words| > 0 && Distinct(words) && multiset(order) == multiset(words[1..])
    requires p.word in Arrange(words, order, scores, Corrected).dropped
    requires Fits(Rebuild(Arrange(words, order, scores, Corrected).crossword), p)
    ensures Overlap(Rebuild(Arrange(words, order, scores, Corrected).crossword), p, |p.word|) == 0
  {
    var o := Arrange(words, order, scores, Corrected);
    var b := Rebuild(o.crossword);
    if Overlap(b, p, |p.word|) >= 1 {
      CorrectedSearchFindsFittingPlacement(b, o.dropped, p);
    }
  }

  /** There is no fallback placement: a second word sharing no letter with the
      first is never tried, so the layout stops with it dropped. */
  lemma UnsharedSecondWordIsDropped(first: string, second: string, scores: nat -> AxisScores, mode: Mode)
    requires first != second
    requires forall c :: c in first ==> c !in second
    ensures Arrange([first, second], [second], scores, mode) == Outcome([Seed(first)], [second])
  {
    var words := [first, second];
    var cw := [Seed(first)];
    var b := Rebuild(cw);
    forall e | 0 <= e < |b| ensures b[e].letter !in second {
      RebuildLettersComeFromWords(cw, e);
    }
    UnsharedWordIsNeverExamined(b, [second], mode, second);
    assert words[1..] == [second];
    assert Step(b, [second], scores(0), mode).None?;
  }

  /** The reported entries of a layout, each with its word's description (lines 114-121). */
  function Entries(cw: seq<Placement>, table: seq<Clue>): (r: seq<Entry>)
    requires forall i :: 0 <= i < |cw| ==> cw[i].word in Words(table)
    ensures |r| == |cw|
    ensures forall i :: 0 <= i < |cw| ==>
              && r[i].word == cw[i].word && r[i].direction == cw[i].axis && r[i].start == cw[i].start
              && Get(table, cw[i].word) == Some(r[i].description)
  {
    seq(|cw|, i requires 0 <= i < |cw| => Entry(cw[i].word, cw[i].axis, cw[i].start, Get(table, cw[i].word).value))
  }

  /** Only words of the list are placed. */
  lemma ArrangePlacesListedWords(words: seq<string>, order: seq<string>, scores: nat -> AxisScores, mode: Mode)
    requires |words| > 0 && Distinct(words) && multiset(order) == multiset(words[1..])
    ensures var cw := Arrange(words, order, scores, mode).crossword;
            forall i :: 0 <= i < |cw| ==> cw[i].word in words
  {
    var o := Arrange(words, order, scores, mode);
    var placed := PlacedWords(o.crossword);
    forall i | 0 <= i < |o.crossword| ensures o.crossword[i].word in words {
      SharedElement(placed, o.dropped, words, i);
    }
  }

  lemma SharedElement(a: seq<string>, b: seq<string>, c: seq<string>, i: nat)
    requires multiset(a) + multiset(b) == multiset(c) && i < |a|
    ensures a[i] in c
  {
    assert a[i] in multiset(a);
    assert a[i] in multiset(c);
  }

  /** The reply for a readable word table (lines 60-121). */
  function Report(theme: string, table: seq<Clue>, scores: nat -> AxisScores, mode: Mode): (r: Puzzle)
    requires |table| >= 1 && Distinct(Words(table))
    ensures r.name == theme && |r.entries| >= 1
    ensures r.entries[0].word == table[0].word && r.entries[0].start == Origin && r.entries[0].direction == X
    ensures forall e :: e in r.entries ==> Get(table, e.word) == Some(e.description)
    ensures var cw := Arrange(Words(table), Words(table)[1..], scores, mode).crossword;
            && |r.entries| == |cw|
            && forall i :: 0 <= i < |cw| ==>
                 r.entries[i].word == cw[i].word && r.entries[i].direction == cw[i].axis && r.entries[i].start == cw[i].start
  {
    var o := Arrange(Words(table), Words(table)[1..], scores, mode);
    ArrangePlacesListedWords(Words(table), Words(table)[1..], scores, mode);
    Puzzle(theme, Entries(o.crossword, table))
  }

  /** The handler, given the theme, the generated reply and the axis scores of each round. */
  function Generate(theme: string, reply: string, scores: nat -> AxisScores, mode: Mode): (r: Result<Puzzle, Failure>)
    ensures r == Failure(EmptyTheme) <==> theme == ""
    ensures r == Failure(Unreadable(OddLineCount)) <==> theme != "" && |Lines(reply)| % 2 == 1
    ensures r != Failure(Unreadable(EmptyWordList))
    ensures r.Success? ==>
              && r.value.name == theme
              && |r.value.entries| >= 1
              && r.value.entries[0].word == Normalize(Lines(reply)[0])
              && r.value.entries[0].start == Origin && r.value.entries[0].direction == X
    ensures r.Success? ==> forall e :: e in r.value.entries ==>
              Get(Tabulate(Lines(reply)).value, e.word) == Some(e.description)
    ensures r.Success? ==> Tabulate(Lines(reply)).Success? && r.value == Report(theme, Tabulate(Lines(reply)).value, scores, mode)
  {
    if theme == "" then Failure(EmptyTheme)
    else
      ReplyNeverLacksWords(reply);
      match Tabulate(Lines(reply))
      case Failure(e) => Failure(Unreadable(e))
      case Success(table) => Success(Report(theme, table, scores, mode))
  }
}

=== FILE: table.dfy ===
/**
 * The word table of main.py lines 52-60: the stripped lines are read in
 * word/description pairs, each word is normalised, and the pairs are stored in
 * an insertion-ordered dictionary, so a repeated word keeps the position of its
 * first occurrence and the description of its last one.
 */
module Table {
  import opened Wrappers
  import opened Text

  /** Why a reply cannot be turned into a word table. */
  datatype Error =
    | OddLineCount   // a word line without a description line (IndexError, main.py:57)
    | EmptyWordList  // no word at all (IndexError on words[0], main.py:61)

  /** One word with its description; a sequence of them is the ordered dictionary. */
  datatype Clue = Clue(word: string, description: string)

  predicate Distinct<T(==)>(s: seq<T>)
  {
    forall i, j :: 0 <= i < j < |s| ==> s[i] != s[j]
  }

  /** The position of the first occurrence of `v` in `s`, or `|s|` when `v` does not occur. */
  function FirstIndex<T(==)>(s: seq<T>, v: T): (i: nat)
    ensures i <= |s|
    ensures i < |s| <==> v in s
    ensures i < |s| ==> s[i] == v
    ensures forall j :: 0 <= j < i ==> s[j] != v
  {
    if |s| == 0 then 0 else if s[0] == v then 0 else 1 + FirstIndex(s[1..], v)
  }

  /** The words of a table (its keys), in order. */
  function Words(cs: seq<Clue>): (r: seq<string>)
    ensures |r| == |cs|
    ensures forall i :: 0 <= i < |cs| ==> r[i] == cs[i].word
  {
    if |cs| == 0 then [] else [cs[0].word] + Words(cs[1..])
  }

  lemma {:induction false} WordsConcat(a: seq<Clue>, b: seq<Clue>)
    ensures Words(a + b) == Words(a) + Words(b)
    decreases |a|
  {
    if |a| > 0 {
      assert (a + b)[1..] == a[1..] + b;
      WordsConcat(a[1..], b);
    } else {
      assert a + b == b;
    }
  }

  /** Dictionary lookup. */
  function Get(cs: seq<Clue>, w: string): (r: Option<string>)
    ensures r.Some? <==> w in Words(cs)
    ensures r.Some? ==> Clue(w, r.value) in cs
  {
    if |cs| == 0 then None
    else if cs[0].word == w then Some(cs[0].description)
    else Get(cs[1..], w)
  }

  /** Dictionary assignment `descriptions[w] = d`: an existing key keeps its
      position and takes the new value; a new key goes last. */
  function Put(cs: seq<Clue>, w: string, d: string): (r: seq<Clue>)
    ensures Get(r, w) == Some(d)
    ensures forall v :: v != w ==> Get(r, v) == Get(cs, v)
  {
    if |cs| == 0 then [Clue(w, d)]
    else if cs[0].word == w then
      var r := [Clue(w, d)] + cs[1..];
      assert r[1..] == cs[1..];
      r
    else
      var rest := Put(cs[1..], w, d);
      var r := [cs[0]] + rest;
      assert r[1..] == rest;
      r
  }

  /** Assignment keeps the order of the keys and appends a new key last. */
  lemma {:induction false} PutWords(cs: seq<Clue>, w: string, d: string)
    ensures Words(Put(cs, w, d)) == if w in Words(cs) then Words(cs) else Words(cs) + [w]
  {
    if |cs| > 0 && cs[0].word != w {
      PutWords(cs[1..], w, d);
    }
  }

  /** The table built by assigning the pairs in order. */
  function Collect(ps: seq<Clue>): (r: seq<Clue>)
    ensures |r| <= |ps|
  {
    if |ps| == 0 then []
    else
      var init := ps[..|ps| - 1];
      var last := ps[|ps| - 1];
      var prev := Collect(init);
      PutWords(prev, last.word, last.description);
      Put(prev, last.word, last.description)
  }

  /** The table lists each word of the pairs exactly once, and no other word. */
  lemma CollectWords(ps: seq<Clue>)
    ensures Distinct(Words(Collect(ps)))
    ensures forall v :: v in Words(Collect(ps)) <==> v in Words(ps)
  {
    CollectWordsAreDedup(ps);
  }

  /** A word keeps the description of its last pair. */
  lemma {:induction false} CollectKeepsLastDescription(ps: seq<Clue>, k: nat)
    requires k < |ps|
    requires forall j :: k < j < |ps| ==> ps[j].word != ps[k].word
    ensures Get(Collect(ps), ps[k].word) == Some(ps[k].description)
    decreases |ps|
  {
    var init := ps[..|ps| - 1];
    assert ps == init + [ps[|ps| - 1]];
    if k < |ps| - 1 {
      assert init[k] == ps[k];
      CollectKeepsLastDescription(init, k);
    }
  }

  /** The distinct elements of `s` in the order of their first occurrence. */
  function Dedup(s: seq<string>): (d: seq<string>)
    ensures Distinct(d)
    ensures forall v :: v in d <==> v in s
  {
    if |s| == 0 then []
    else
      var init := Dedup(s[..|s| - 1]);
      var last := s[|s| - 1];
      assert forall v :: v in s <==> v in s[..|s| - 1] || v == last by {
        assert s == s[..|s| - 1] + [last];
      }
      if last in init then init else init + [last]
  }

  /** The table's words are the pair words without repeats, in first-occurrence order. */
  lemma {:induction false} CollectWordsAreDedup(ps: seq<Clue>)
    ensures Words(Collect(ps)) == Dedup(Words(ps))
    decreases |ps|
  {
    if |ps| > 0 {
      var init := ps[..|ps| - 1];
      var last := ps[|ps| - 1];
      CollectWordsAreDedup(init);
      CollectLast(ps, init, last);
      PutWords(Collect(init), last.word, last.description);
      WordsLast(ps, init, last);
      DedupLast(Words(ps), Words(init), last.word);
    }
  }

  lemma CollectLast(ps: seq<Clue>, init: seq<Clue>, last: Clue)
    requires |ps| > 0 && init == ps[..|ps| - 1] && last == ps[|ps| - 1]
    ensures Collect(ps) == Put(Collect(init), last.word, last.description)
  {
  }

  lemma WordsLast(ps: seq<Clue>, init: seq<Clue>, last: Clue)
    requires |ps| > 0 && init == ps[..|ps| - 1] && last == ps[|ps| - 1]
    ensures |Words(ps)| > 0 && Words(ps)[..|ps| - 1] == Words(init) && Words(ps)[|ps| - 1] == last.word
  {
    var ws, wi := Words(ps), Words(init);
    forall i | 0 <= i < |wi| ensures ws[i] == wi[i] {
      assert init[i] == ps[i];
    }
  }

  lemma DedupLast(s: seq<string>, init: seq<string>, last: string)
    requires |s| > 0 && s[..|s| - 1] == init && s[|s| - 1] == last
    ensures Dedup(s) == if last in Dedup(init) then Dedup(init) else Dedup(init) + [last]
  {
  }

  /** The first element of a non-empty sequence is listed first. */
  lemma {:induction false} DedupHead(s: seq<string>)
    requires |s| > 0
    ensures |Dedup(s)| > 0 && Dedup(s)[0] == s[0]
    decreases |s|
  {
    if |s| > 1 {
      DedupHead(s[..|s| - 1]);
    }
  }

  /** Every element of `Dedup(s)` occurs in `s` before the elements listed after it. */
  lemma {:induction false} DedupFirstOccurrenceOrder(s: seq<string>, i: nat, j: nat)
    requires i < j < |Dedup(s)|
    ensures FirstIndex(s, Dedup(s)[i]) < FirstIndex(s, Dedup(s)[j])
    decreases |s|
  {
    var init := s[..|s| - 1];
    var last := s[|s| - 1];
    var prev := Dedup(init);
    var d := Dedup(s);
    assert s == init + [last];
    assert d[i] == prev[i];
    FirstIndexOfPrefix(init, [last], d[i]);
    if j < |prev| {
      assert d[j] == prev[j];
      DedupFirstOccurrenceOrder(init, i, j);
      FirstIndexOfPrefix(init, [last], d[j]);
    } else {
      assert d == prev + [last] && d[j] == last && last !in init;
      FirstIndexAfterPrefix(init, last);
    }
  }

  /** Words are listed in the order of their first occurrence among the pairs. */
  lemma CollectFirstOccurrenceOrder(ps: seq<Clue>)
    ensures var ws := Words(Collect(ps));
            forall i, j :: 0 <= i < j < |ws| ==>
              FirstIndex(Words(ps), ws[i]) < FirstIndex(Words(ps), ws[j])
  {
    CollectWordsAreDedup(ps);
    forall i, j | 0 <= i < j < |Dedup(Words(ps))| {
      DedupFirstOccurrenceOrder(Words(ps), i, j);
    }
  }

  lemma {:induction false} FirstIndexOfPrefix<T>(a: seq<T>, b: seq<T>, v: T)
    requires v in a
    ensures FirstIndex(a + b, v) == FirstIndex(a, v)
    decreases |a|
  {
    if a[0] != v {
      assert (a + b)[1..] == a[1..] + b;
      FirstIndexOfPrefix(a[1..], b, v);
    }
  }

  lemma {:induction false} FirstIndexAfterPrefix<T>(a: seq<T>, v: T)
    requires v !in a
    ensures FirstIndex(a + [v], v) == |a|
    decreases |a|
  {
    if |a| > 0 {
      assert (a + [v])[1..] == a[1..] + [v];
      FirstIndexAfterPrefix(a[1..], v);
    }
  }

  /** The pairs read from an even number of lines: word lines normalised. */
  function Pairs(lines: seq<string>): (ps: seq<Clue>)
    requires |lines| % 2 == 0
    ensures |ps| == |lines| / 2
    ensures forall k :: 0 <= k < |ps| ==> ps[k] == Clue(Normalize(lines[2 * k]), lines[2 * k + 1])
  {
    seq(|lines| / 2, k requires 0 <= k < |lines| / 2 => Clue(Normalize(lines[2 * k]), lines[2 * k + 1]))
  }

  /** The first pair's word is the table's first word. */
  lemma CollectFirstWord(ps: seq<Clue>)
    ensures |ps| > 0 ==> |Collect(ps)| > 0 && Collect(ps)[0].word == ps[0].word
  {
    if |ps| > 0 {
      CollectWordsAreDedup(ps);
      DedupHead(Words(ps));
    }
  }

  /** The word table of a list of stripped lines, or the error that stops the handler. */
  function Tabulate(lines: seq<string>): (r: Result<seq<Clue>, Error>)
    ensures r == Failure(OddLineCount) <==> |lines| % 2 == 1
    ensures r == Failure(EmptyWordList) <==> |lines| == 0
    ensures r.Success? ==> 1 <= |r.value| <= |lines| / 2 && Distinct(Words(r.value))
    ensures r.Success? ==> r.value[0].word == Normalize(lines[0])
    ensures r.Success? ==> Words(r.value) == Dedup(Words(Pairs(lines)))
  {
    if |lines| % 2 == 1 then Failure(OddLineCount)
    else
      var cs := Collect(Pairs(lines));
      CollectWords(Pairs(lines));
      CollectWordsAreDedup(Pairs(lines));
      assert |lines| > 0 ==> Words(Pairs(lines))[0] in Words(cs);
      CollectFirstWord(Pairs(lines));
      if |cs| == 0 then Failure(EmptyWordList)
      else Success(cs)
  }

  /** A word of the reply keeps the description of its last pair: the
      description line that follows its last occurrence. */
  lemma TabulateKeepsLastDescription(lines: seq<string>, k: nat)
    requires |lines| % 2 == 0 && k < |lines| / 2
    requires forall j :: k < j < |lines| / 2 ==> Normalize(lines[2 * j]) != Normalize(lines[2 * k])
    ensures Tabulate(lines).Success?
    ensures Get(Tabulate(lines).value, Normalize(lines[2 * k])) == Some(lines[2 * k + 1])
  {
    CollectKeepsLastDescription(Pairs(lines), k);
  }

  /** The line list of a reply is never empty, so a reply never fails with an
      empty word list: it either has an odd number of lines or yields a word. */
  lemma ReplyNeverLacksWords(reply: string)
    ensures Tabulate(Lines(reply)) != Failure(EmptyWordList)
  {
  }
}

=== FILE: text.dfy ===
/**
 * The text handling of main.py lines 51-56: splitting the generator's reply
 * into lines, stripping each line, and cleaning a word (upper-case it, remove
 * digits, remove non-word characters). Characters are classified over ASCII.
 */
module Text {

  // ---------------------------------------------------------------------------
  // Splitting the reply into lines: str.split('\n')

  /** Joins lines with '\n' between consecutive ones. */
  function JoinLines(lines: seq<string>): string
    requires |lines| >= 1
  {
    if |lines| == 1 then lines[0] else lines[0] + "\n" + JoinLines(lines[1..])
  }

  /** The pieces of `s` between newline characters, as `s.split('\n')` yields them. */
  function SplitLines(s: string): (r: seq<string>)
    ensures |r| >= 1
    ensures forall i :: 0 <= i < |r| ==> '\n' !in r[i]
    decreases |s|
  {
    if |s| == 0 then [""]
    else
      var rest := SplitLines(s[1..]);
      if s[0] == '\n' then [""] + rest
      else [[s[0]] + rest[0]] + rest[1..]
  }

  /** Joining the split lines gives the reply back. */
  lemma {:induction false} JoinSplitLines(s: string)
    ensures JoinLines(SplitLines(s)) == s
    decreases |s|
  {
    if |s| > 0 {
      var rest := SplitLines(s[1..]);
      JoinSplitLines(s[1..]);
      if s[0] == '\n' {
        assert ([""] + rest)[1..] == rest;
      } else {
        var r := [[s[0]] + rest[0]] + rest[1..];
        assert r[1..] == rest[1..];
        if |rest| > 1 {
          assert JoinLines(rest) == rest[0] + "\n" + JoinLines(rest[1..]);
        }
      }
    }
  }

  /** Splitting a line that holds no newline gives that line alone. */
  lemma {:induction false} SplitSingleLine(a: string)
    requires '\n' !in a
    ensures SplitLines(a) == [a]
    decreases |a|
  {
    if |a| > 0 {
      assert '\n' !in a[1..] by {
        forall i | 0 <= i < |a[1..]| ensures a[1..][i] != '\n' {
          assert a[1..][i] == a[i + 1];
        }
      }
      SplitSingleLine(a[1..]);
      assert [a[0]] + a[1..] == a;
    }
  }

  /** A newline after a newline-free prefix starts a new line. */
  lemma {:induction false} SplitAtNewline(a: string, b: string)
    requires '\n' !in a
    ensures SplitLines(a + "\n" + b) == [a] + SplitLines(b)
    decreases |a|
  {
    var s := a + "\n" + b;
    if |a| == 0 {
      assert s == "\n" + b;
      assert s[1..] == b;
    } else {
      assert '\n' !in a[1..] by {
        forall i | 0 <= i < |a[1..]| ensures a[1..][i] != '\n' {
          assert a[1..][i] == a[i + 1];
        }
      }
      assert s[1..] == a[1..] + "\n" + b;
      SplitAtNewline(a[1..], b);
      assert [a[0]] + a[1..] == a;
    }
  }

  /** Splitting joined newline-free lines gives the lines back. */
  lemma {:induction false} SplitJoinLines(lines: seq<string>)
    requires |lines| >= 1
    requires forall i :: 0 <= i < |lines| ==> '\n' !in lines[i]
    ensures SplitLines(JoinLines(lines)) == lines
    decreases |lines|
  {
    if |lines| == 1 {
      SplitSingleLine(lines[0]);
    } else {
      SplitJoinLines(lines[1..]);
      SplitAtNewline(lines[0], JoinLines(lines[1..]));
      assert [lines[0]] + lines[1..] == lines;
    }
  }

  // ---------------------------------------------------------------------------
  // Stripping a line: str.strip()

  /** Python's whitespace among ASCII characters: tab to carriage return, the
      four separators 0x1c-0x1f, and space. */
  predicate IsSpace(c: char)
  {
    var n := c as int;
    (9 <= n <= 13) || (28 <= n <= 32)
  }

  predicate AllSpace(s: string)
  {
    forall i :: 0 <= i < |s| ==> IsSpace(s[i])
  }

  /** The length of the whitespace run that begins `s`. */
  function LeadingSpaces(s: string): (n: nat)
    ensures n <= |s|
    ensures AllSpace(s[..n])
    ensures n < |s| ==> !IsSpace(s[n])
  {
    if |s| == 0 || !IsSpace(s[0]) then 0
    else
      var m := LeadingSpaces(s[1..]);
      assert forall i :: 0 < i < m + 1 ==> s[i] == s[1..][..m][i - 1];
      1 + m
  }

  /** The length of the whitespace run that ends `s`. */
  function TrailingSpaces(s: string): (n: nat)
    ensures n <= |s|
    ensures AllSpace(s[|s| - n..])
    ensures n < |s| ==> !IsSpace(s[|s| - n - 1])
  {
    if |s| == 0 || !IsSpace(s[|s| - 1]) then 0
    else
      var t := s[..|s| - 1];
      var m := TrailingSpaces(t);
      assert forall i :: |s| - m - 1 <= i < |s| - 1 ==> s[i] == t[|t| - m..][i - (|t| - m)];
      1 + m
  }

  /** `s` without leading and trailing whitespace. */
  function Strip(s: string): (r: string)
    ensures var a := LeadingSpaces(s);
            && a + |r| <= |s|
            && r == s[a..a + |r|]
            && AllSpace(s[..a])
            && AllSpace(s[a + |r|..])
    ensures |r| == 0 || (!IsSpace(r[0]) && !IsSpace(r[|r| - 1]))
  {
    var a := LeadingSpaces(s);
    var t := s[a..];
    var r := t[..|t| - TrailingSpaces(t)];
    assert s[a + |r|..] == t[|t| - TrailingSpaces(t)..];
    r
  }

  /** Stripping removes exactly the surrounding whitespace: a text whose ends are
      not whitespace comes back unchanged from any whitespace frame. */
  lemma StripFramed(pre: string, m: string, post: string)
    requires AllSpace(pre) && AllSpace(post)
    requires |m| == 0 || (!IsSpace(m[0]) && !IsSpace(m[|m| - 1]))
    ensures Strip(pre + m + post) == m
  {
    var s := pre + m + post;
    var a := LeadingSpaces(s);
    var r := Strip(s);
    if |m| == 0 {
      assert s == pre + post;
      assert AllSpace(s) by {
        forall i | 0 <= i < |s| ensures IsSpace(s[i]) {
          if i < |pre| { assert s[i] == pre[i]; } else { assert s[i] == post[i - |pre|]; }
        }
      }
      assert a == |s|;
    } else {
      assert s[|pre|] == m[0];
      assert a == |pre|;
      var e := |pre| + |m|;
      assert s[e - 1] == m[|m| - 1];
      assert s[a..e] == m;
    }
  }

  /** Stripping twice strips nothing more. */
  lemma StripIdempotent(s: string)
    ensures Strip(Strip(s)) == Strip(s)
  {
    var r := Strip(s);
    StripFramed("", r, "");
    assert "" + r + "" == r;
  }

  /** The stripped lines of the reply, in order. */
  function Lines(reply: string): (r: seq<string>)
    ensures |r| == |SplitLines(reply)| >= 1
    ensures forall i :: 0 <= i < |r| ==> r[i] == Strip(SplitLines(reply)[i])
  {
    var raw := SplitLines(reply);
    seq(|raw|, i requires 0 <= i < |raw| => Strip(raw[i]))
  }

  // ---------------------------------------------------------------------------
  // Normalising a word: upper(), then remove \d, then remove \W

  predicate IsDigit(c: char) { '0' <= c <= '9' }

  predicate IsLower(c: char) { 'a' <= c <= 'z' }

  predicate IsUpper(c: char) { 'A' <= c <= 'Z' }

  /** Word characters in the sense of `\w`, restricted to ASCII. */
  predicate IsWordChar(c: char) { IsUpper(c) || IsLower(c) || IsDigit(c) || c == '_' }

  /** The characters a normalised word consists of. */
  predicate IsNormal(c: char) { IsUpper(c) || c == '_' }

  /** `str.upper()` on one ASCII character: a lower-case letter becomes its
      upper-case letter, every other character is kept. */
  function UpperChar(c: char): (r: char)
    ensures IsLower(c) ==> IsUpper(r) && r as int == c as int - 32
    ensures !IsLower(c) ==> r == c
  {
    if IsLower(c) then (c as int - 32) as char else c
  }

  /** `str.upper()` over ASCII. */
  function UpperAll(s: string): (r: string)
    ensures |r| == |s|
    ensures forall i :: 0 <= i < |s| ==> r[i] == UpperChar(s[i])
  {
    seq(|s|, i requires 0 <= i < |s| => UpperChar(s[i]))
  }

  /** The characters of `s` that `keep` accepts, in order (`re.sub(pattern, '', s)`
      for the complementary pattern). */
  function Filter(s: string, keep: char -> bool): (r: string)
    ensures |r| <= |s|
    ensures forall i :: 0 <= i < |r| ==> keep(r[i])
    ensures forall c :: c in s && keep(c) ==> c in r
    ensures forall c :: c in r ==> c in s
  {
    if |s| == 0 then ""
    else (if keep(s[0]) then [s[0]] else "") + Filter(s[1..], keep)
  }

  lemma {:induction false} FilterConcat(a: string, b: string, keep: char -> bool)
    ensures Filter(a + b, keep) == Filter(a, keep) + Filter(b, keep)
    decreases |a|
  {
    if |a| > 0 {
      assert (a + b)[1..] == a[1..] + b;
      FilterConcat(a[1..], b, keep);
    } else {
      assert a + b == b;
    }
  }

  /** Filtering a string whose every character is kept leaves it unchanged. */
  lemma {:induction false} FilterKeepsAll(s: string, keep: char -> bool)
    requires forall i :: 0 <= i < |s| ==> keep(s[i])
    ensures Filter(s, keep) == s
    decreases |s|
  {
    if |s| > 0 {
      FilterKeepsAll(s[1..], keep);
      assert [s[0]] + s[1..] == s;
    }
  }

  /** A word as main.py lines 54-56 clean it. */
  function Normalize(w: string): (r: string)
    ensures |r| <= |w|
    ensures forall i :: 0 <= i < |r| ==> IsNormal(r[i])
  {
    var noDigits := Filter(UpperAll(w), c => !IsDigit(c));
    var r := Filter(noDigits, IsWordChar);
    assert forall c :: c in r ==> c in UpperAll(w) && !IsDigit(c) && IsWordChar(c);
    assert forall c :: c in UpperAll(w) ==> !IsLower(c);
    r
  }

  /** Every letter and underscore of a word survives normalisation, upper-cased;
      digits and every other character are removed. */
  lemma NormalizeKeeps(w: string, c: char)
    requires c in w
    ensures (IsWordChar(c) && !IsDigit(c)) ==> UpperChar(c) in Normalize(w)
    ensures (IsDigit(c) || !IsWordChar(c)) ==> c !in Normalize(w)
  {
    var i :| 0 <= i < |w| && w[i] == c;
    assert UpperAll(w)[i] == UpperChar(c);
  }

  /** Reference reading of the two substitutions: upper-case the word, then keep
      exactly the upper-case letters and underscores, in order. */
  lemma NormalizeIsOneFilter(w: string)
    ensures Normalize(w) == Filter(UpperAll(w), IsNormal)
  {
    var u := UpperAll(w);
    forall i | 0 <= i < |u| ensures !IsLower(u[i]) {
    }
    FilterTwice(u, c => !IsDigit(c), IsWordChar, IsNormal);
  }

  /** Two filters in a row are one filter with both conditions, on a string none
      of whose characters tells the two apart. */
  lemma {:induction false} FilterTwice(s: string, p: char -> bool, q: char -> bool, both: char -> bool)
    requires forall i :: 0 <= i < |s| ==> (both(s[i]) <==> p(s[i]) && q(s[i]))
    ensures Filter(Filter(s, p), q) == Filter(s, both)
    decreases |s|
  {
    if |s| > 0 {
      FilterTwice(s[1..], p, q, both);
      var head: string := if p(s[0]) then [s[0]] else "";
      FilterConcat(head, Filter(s[1..], p), q);
      if p(s[0]) {
        assert Filter(head, q) == (if q(s[0]) then [s[0]] else "") by {
          assert head[1..] == "";
        }
      }
    }
  }

  /** A word that is already clean is left as it is. */
  lemma NormalizeKeepsCleanWord(w: string)
    requires forall i :: 0 <= i < |w| ==> IsNormal(w[i])
    ensures Normalize(w) == w
  {
    assert UpperAll(w) == w;
    FilterKeepsAll(w, c => !IsDigit(c));
    FilterKeepsAll(w, IsWordChar);
  }

  /** Normalisation is idempotent. */
  lemma NormalizeIdempotent(w: string)
    ensures Normalize(Normalize(w)) == Normalize(w)
  {
    NormalizeKeepsCleanWord(Normalize(w));
  }

  /** Normalisation works character by character: it distributes over concatenation. */
  lemma NormalizeConcat(a: string, b: string)
    ensures Normalize(a + b) == Normalize(a) + Normalize(b)
  {
    assert UpperAll(a + b) == UpperAll(a) + UpperAll(b);
    FilterConcat(UpperAll(a), UpperAll(b), c => !IsDigit(c));
    var da := Filter(UpperAll(a), c => !IsDigit(c));
    var db := Filter(UpperAll(b), c => !IsDigit(c));
    FilterConcat(da, db, IsWordChar);
  }
}

=== FILE: wrappers.dfy ===
/** Failure-compatible result types shared by every module of the model. */
module Wrappers {

  /** A value that may be absent: Python's `None` versus a present value. */
  datatype Option<+T> = None | Some(value: T)

  /** Either a computed value or the error that stopped the computation. */
  datatype Result<+R, +E> = Success(value: R) | Failure(error: E)
}
